=== FILE: README.md ===
# Question ingestion and query preparation of a retrieval plugin

This project is a Dafny model of the question path of a ChatGPT retrieval plugin. It covers:

- **Upsert.** `DataStore.upsert` requests deletes for the incoming documents and chunks them. It then walks the questions generated for every chunk. A question is saved to the question table only when it has an embedding and no embedding returned by the stored-embedding query for the chain is a near-duplicate of it. Near-duplicate means cosine similarity above 0.9. Finally the chunks are handed to the store.
- **Query.** `DataStore.query` puts a chain banner in front of every query, embeds all of them in one batch, and pairs each query with its embedding by position.
- **Question extraction.** A chat completion is requested. A reply without choices is requested again, three times in all, and then tenacity's `RetryError` is raised to the caller. Otherwise the completion's lines are stripped of numbering, and lines of seven characters or fewer are dropped.
- **Question tables.** There are two variants: DynamoDB and Supabase. Each writes a question with its embedding as comma-joined text and reads the stored embeddings back by splitting on commas.
- **OpenAI wrappers.** Batch embedding, with its empty-batch short circuit. Chat completion, with its stripped reply and its retry decorator. The message list `ask_with_chunks` builds around one completion.

Python exceptions become the `Err` side of `Base.Result`. They are `IndexError`, `ZeroDivisionError`, `AttributeError`, `ValueError`, `AssertionError`, and tenacity's `RetryError`.

Everything outside the process is a function parameter:

- the OpenAI API, as the choices or embeddings a request gets back;
- the items a table query returns;
- the rows an insert reports;
- the chunker;
- Python's `str(float)` and `float(str)`.

Cosine similarity is computed over `real`. Its threshold test `dot / sqrt(nx * ny) > 0.9` is decided without square roots: it holds exactly when `dot > 0` and `dot * dot > 0.81 * nx * ny`. `Similarity.ExceedsIsQuotientAbove` proves this equivalence.

Modules, one per source file plus shared pieces:

- `Base`: `Option`, `Result`, `Zip`, and a filter-map with its trace lemmas.
- `PyStr`: `join`, `split`, `splitlines`, `lstrip`, `strip`, and `str(int)`.
- `Similarity`: cosine similarity.
- `EmbeddingText`: the comma-joined embedding text.
- `DynamoDb`, `Supabase`, `OpenAi`, `ExtractQuestions`, `DataStore`: one per source file.

Near-duplicates are checked only against the stored embeddings, which `upsert` reads once before its question loop (datastore/datastore.py:55). Questions saved during the loop are not added to that list. Two near-identical new questions in one batch are therefore both saved. `DataStore.BatchTwinsBothSaved` and `DataStore.DuplicateInBatchSavedTwice` state this.

## Model

| member | source | states |
|---|---|---|
| PyStr.Join | datastore/datastore.py:76 | separator-free parts join into a text with exactly one separator fewer than there are parts |
| PyStr.Split | services/dynamodb.py:89 | `split(",")` yields one piece more than there are commas, and no piece holds a comma |
| PyStr.JoinSplit | services/dynamodb.py:89 | joining the pieces of a split with the separator restores the text |
| PyStr.SplitJoin | services/dynamodb.py:89 | splitting a join of one or more separator-free pieces gives the same pieces back, in order |
| PyStr.EmptyJoinDoesNotRoundTrip | datastore/datastore.py:76 | joining no pieces gives `""`, which splits into one empty piece, not into none |
| PyStr.SplitLines | services/extract_questions.py:28 | `splitlines()` gives no lines exactly for empty text, and no line holds a line-break character |
| PyStr.JoinSplitLines | services/extract_questions.py:28 | for text whose only breaks are `\n` and which does not end in one, joining the lines with `\n` restores the text |
| PyStr.SplitLinesIsSplit | services/extract_questions.py:28 | on such non-empty text, `splitlines()` agrees with `split("\n")` |
| PyStr.LStrip | services/extract_questions.py:28 | `lstrip(chars)` returns a suffix of its input that does not start with a character of `chars`, and everything cut off is in `chars` |
| PyStr.RStrip | services/openai.py:61 | `rstrip(chars)` returns a prefix that does not end with a character of `chars`, and everything cut off is in `chars` |
| PyStr.LStripIdempotent | services/extract_questions.py:28 | stripping numbering from a stripped line changes nothing |
| PyStr.StripChars | services/openai.py:61 | `strip(chars)` returns a slice of its input with no character of `chars` at either end, and everything cut off on either side is in `chars` |
| PyStr.Strip | services/openai.py:61 | `strip()` returns a slice of its input that neither starts nor ends with whitespace, everything cut off on either side being whitespace |
| PyStr.StripCharsIdempotent | services/openai.py:61 | stripping a stripped string changes nothing |
| PyStr.IntToDecimal | services/extract_questions.py:13 | `str(n)` starts with `-` exactly when `n` is negative; the rest is a non-empty run of decimal digits with no leading zero whose value is the magnitude of `n` |
| PyStr.NatToDecimal | services/extract_questions.py:13 | `str(n)` is a non-empty run of decimal digits that starts with `0` only for `n == 0`, so it has no leading zero |
| PyStr.NatToDecimalRoundTrip | services/extract_questions.py:13 | reading the digits of `str(n)` back gives `n` |
| Similarity.CosineSimilarity | datastore/datastore.py:18-26 | the loop's three running sums are the dot product and the two squared norms; it raises `IndexError` when `v2` is shorter and `ZeroDivisionError` when the norm product is zero |
| Similarity.Similarity | datastore/datastore.py:18-26 | a failure is `IndexError` or `ZeroDivisionError`; a computed similarity needs `v2` at least as long as `v1` and has a positive divisor |
| Similarity.SimilarityFailures | datastore/datastore.py:21-26 | it raises `IndexError` exactly when `v2` is shorter than `v1`, and `ZeroDivisionError` exactly when either vector is zero on the indices read |
| Similarity.CauchySchwarz | datastore/datastore.py:20-25 | the squared dot product never exceeds the product of the squared norms |
| Similarity.SimilarityBounded | datastore/datastore.py:26 | a computed similarity has a positive divisor and a squared dividend at most that divisor, so it lies in [-1, 1] |
| Similarity.ExceedsIsQuotientAbove | datastore/datastore.py:70 | the square-free test decides the same comparison as `dot / sqrt(normSq) > t` for `t >= 0` |
| Similarity.Exceeds | datastore/datastore.py:70 | the test `similarity > t` without square roots: a positive dot product whose square exceeds `t * t` times the norm product |
| Similarity.Similar | datastore/datastore.py:69-70 | comparing with one stored embedding raises exactly when the similarity raises, and only its errors; a near-duplicate verdict needs a positive dot product over the indices read |
| Similarity.SimilarIsThresholdTest | datastore/datastore.py:69-70 | when the similarity is computed, the verdict is exactly whether `dot / sqrt(normSq) > 0.9` |
| Similarity.SimilaritySymmetric | datastore/datastore.py:18-26 | for vectors of equal length the similarity does not depend on argument order |
| Similarity.SimilarityTruncatesSecond | datastore/datastore.py:21-22 | only the first `len(v1)` components of `v2` count, and a longer first argument raises `IndexError` |
| Similarity.SelfSimilarity | datastore/datastore.py:18-26 | a non-zero vector has similarity exactly 1 with itself and is its own near-duplicate; a zero vector raises `ZeroDivisionError` |
| EmbeddingText.Texts | datastore/datastore.py:76 | one text per component, in order, each that component's `str` |
| EmbeddingText.Encode | datastore/datastore.py:76 | when no component's text holds a comma, splitting the written text at commas gives back the component texts, one per component, in order |
| EmbeddingText.ParseAll | services/dynamodb.py:89 | parsing succeeds exactly when every piece parses; the result then has one number per piece in order, and otherwise the error is `ValueError` |
| EmbeddingText.Decode | services/dynamodb.py:89 | decoding succeeds exactly when every comma-separated piece parses; the vector then holds piece i's number at position i, one component more than the text has commas; a failure is `ValueError` |
| EmbeddingText.DecodeEncode | datastore/datastore.py:76 | when `float(str(x))` gives back each component `x` of a non-empty embedding and no component's text holds a comma, decoding the text written for it gives the embedding back |
| EmbeddingText.FaithfulExample | datastore/datastore.py:76 | that round-trip condition can be met: a concrete embedding, writer and reader satisfy it |
| EmbeddingText.EmptyEmbeddingText | datastore/datastore.py:76 | the empty embedding is written as `""`, and reading `""` back raises `ValueError` |
| DynamoDb.SaveQuestion | services/dynamodb.py:94-99 | `put_item` stores an item with exactly the attributes chain, question and embedding under the (chain, question) key, and leaves every other item unchanged |
| DynamoDb.SaveOverwrites | services/dynamodb.py:94-99 | saving the same question twice leaves what the second save alone leaves |
| DynamoDb.SaveAddsAtMostOne | services/dynamodb.py:94-99 | a save adds at most one item |
| DynamoDb.SaveDropsOtherAttributes | services/dynamodb.py:94-99 | the saved item has no attribute besides the three written, whatever the replaced item held |
| DynamoDb.QueryQuestions | services/dynamodb.py:64-80 | one record per item, in item order, each copying the seven named attributes, `None` where the item lacks one |
| DynamoDb.FreshQuestionRecord | services/dynamodb.py:70-78 | a freshly saved question reads back with no archived, used, category or answer value |
| DynamoDb.ItemEmbedding | services/dynamodb.py:89 | an item whose embedding attribute is missing or not text raises `AttributeError`, and only such an item does; for a text attribute the read succeeds exactly when every comma-separated piece parses, the vector then holds the pieces' numbers in order, and a failure is `ValueError` |
| DynamoDb.QueryQuestionEmbeddings | services/dynamodb.py:82-91 | the read succeeds exactly when every item reads; it then gives one vector per item in item order, each with commas + 1 components; a failure is the error of the first item that cannot be read |
| DynamoDb.SavedEmbeddingReadsBack | services/dynamodb.py:94-99 | the item a save writes for a non-empty embedding reads back as exactly that embedding |
| DynamoDb.SaveThenReadEmbedding | services/dynamodb.py:82-99 | after a save into any table, the item under the saved key reads back as the saved embedding, and read alone it gives exactly that one embedding |
| Supabase.FilledText | services/supabase.py:31-32 | a cell is kept exactly when it is neither `None` nor `""`, and then its text is kept |
| Supabase.Present | services/supabase.py:30-32 | no more texts are kept than there are cells |
| Supabase.PresentTrace | services/supabase.py:30-34 | the kept texts are those of the filled cells, one per filled cell, in row order; no empty cell contributes |
| Supabase.QueryQuestionEmbeddings | services/supabase.py:27-35 | empty cells are skipped; the read succeeds exactly when every kept text parses, gives one vector per kept text in order with commas + 1 components, and otherwise raises `ValueError` |
| Supabase.SavedEmbeddingReadsBack | services/supabase.py:31-33 | the text saved for a non-empty embedding is not skipped and reads back as that embedding |
| Supabase.SaveThenReadEmbedding | services/supabase.py:27-44 | the embedding cell of the row a save inserts is kept by the read and decodes to the saved embedding, whatever the insert reports back |
| Supabase.EmptyEmbeddingSkipped | services/supabase.py:31-32 | the text saved for the empty embedding is `""`, and such a cell is skipped rather than raising |
| Supabase.SaveQuestion | services/supabase.py:38-44 | the insert carries chain, question and embedding into the questions table, and the call raises `AssertionError` exactly when no row comes back |
| OpenAi.GetEmbeddings | services/openai.py:10-33 | no texts means no request and no embeddings; otherwise one request carries all texts, in order, to the ada model, and the response's embeddings are returned |
| OpenAi.EmptyBatchNeedsNoApi | services/openai.py:23-24 | the result for no texts is the same whatever the API would answer |
| OpenAi.Attempt | services/openai.py:36-61 | one attempt with `left` to go sends the same request at most `left` times; a reply without choices is re-requested until none are left and ends in `RetryError`; a reply with choices ends the retrying with the first choice stripped |
| OpenAi.GetChatCompletion | services/openai.py:36-63 | a reply without choices is requested three times in all, the same request each time, and ends in `RetryError`; otherwise one request suffices and the reply is a slice of the first choice with no whitespace at either end, everything cut off being whitespace |
| OpenAi.CompletionIsStripped | services/openai.py:61 | stripping the returned completion again changes nothing |
| OpenAi.AskPrompt | services/openai.py:83-85 | the prompt is the fixed head, then the question verbatim, then a newline and four spaces |
| OpenAi.PromptEmbedsQuestion | services/openai.py:83-85 | the prompt holds the question verbatim right after its fixed head |
| OpenAi.ChunkMessages | services/openai.py:77-81 | one user message per chunk, in chunk order |
| OpenAi.StartOf | services/openai.py:71-76 | a non-empty caller list is the conversation itself; an empty one is replaced by a fresh list holding only the system message |
| OpenAi.Outgoing | services/openai.py:77-87 | the conversation is kept as a prefix, followed by one user message per chunk and then the prompt |
| OpenAi.OutgoingAddsNoSystem | services/openai.py:77-87 | nothing appended after the conversation is a system message |
| OpenAi.AskRequestFor | services/openai.py:71-93 | the request holds the conversation or the system message, then the chunks, then the prompt, and goes to gpt-4 with at most 1024 tokens at temperature 0.7 |
| OpenAi.AskWithChunks | services/openai.py:66-96 | no choices raises `IndexError`; otherwise the answer is choice 0 and the returned list is the request's messages plus the assistant's answer; a non-empty caller list becomes that list, and an empty default is never touched |
| OpenAi.AnswerIsLastMessage | services/openai.py:94-96 | the answer is the content of the last returned message, which the assistant wrote, and the list grew by the chunks, the prompt and the answer |
| OpenAi.FollowUpExtends | services/openai.py:71-77 | passing a returned list back in continues it: it stays a prefix, the only system message is the first, and the list grows by the new chunks and prompt |
| ExtractQuestions.ExtractPrompt | services/extract_questions.py:12-16 | the system prompt is the fixed lead, then `str(count)`, then the fixed tail |
| ExtractQuestions.PromptStatesCount | services/extract_questions.py:9-19 | the system prompt carries the requested count as decimal digits that read back as the count |
| ExtractQuestions.Candidate | services/extract_questions.py:28-29 | a kept line is longer than seven characters and does not start with a numbering character |
| ExtractQuestions.CandidateIsStrippedLine | services/extract_questions.py:28-29 | a kept question is a suffix of its line preceded only by numbering characters, and a line is dropped exactly when its stripped remainder has seven characters or fewer |
| ExtractQuestions.KeepQuestions | services/extract_questions.py:28-29 | no more questions are kept than there are lines |
| ExtractQuestions.KeptAreQuestions | services/extract_questions.py:28-29 | there are no more questions than lines, and each is a question that stripping leaves unchanged |
| ExtractQuestions.KeepQuestionsTrace | services/extract_questions.py:28-29 | the questions come from the lines in order: exactly the lines with a long-enough remainder give one, each its own stripped remainder |
| ExtractQuestions.CompletionLines | services/extract_questions.py:6-28 | short text, or a reply without choices, gives no lines to filter; otherwise the lines are the `splitlines()` of the first choice stripped of whitespace |
| ExtractQuestions.Extract | services/extract_questions.py:5-33 | text under 50 characters sends nothing and yields `[]`; otherwise the request goes to gpt-3.5-turbo with the prompt and the text; a reply without choices is requested three times and raises `RetryError`, which the `try` does not catch; one request suffices otherwise; each result is a question, no more than the completion's lines |
| ExtractQuestions.ExtractTrace | services/extract_questions.py:21-33 | the returned questions are, in order, the stripped completion lines that are long enough, and every such line gives one |
| DataStore.DeleteFor | datastore/datastore.py:38-49 | a delete is requested exactly for a document with a truthy id, and names that id |
| DataStore.DeleteTargets | datastore/datastore.py:38-49 | at most one delete is requested per document |
| DataStore.DeleteTargetsTrace | datastore/datastore.py:38-49 | one delete per document with a truthy id, in document order, and none for the others |
| DataStore.Verdict | datastore/datastore.py:67-73 | the comparison succeeds exactly when every stored comparison does; the verdict is that SOME stored embedding is similar; a failure is the first failing comparison's error |
| DataStore.VerdictErrPrefix | datastore/datastore.py:67-73 | once a prefix of the stored list raises, the whole comparison raises the same error |
| DataStore.CompareWithStored | datastore/datastore.py:67-73 | the loop without `break` computes that verdict |
| DataStore.Novel | datastore/datastore.py:63-73 | a question is novel when it has an embedding and the comparison with every stored embedding succeeds and finds none similar |
| DataStore.Decide | datastore/datastore.py:63-77 | a question is saved exactly when it is novel, with its own text and embedding text; it raises exactly when it has an embedding whose comparison raises |
| DataStore.Screen | datastore/datastore.py:58-77 | the question loop issues at most one save per question |
| DataStore.ScreenIsFilter | datastore/datastore.py:58-77 | without a failure, the saves are exactly the filter's output over the questions |
| DataStore.ScreenCompletes | datastore/datastore.py:58-77 | the loop finishes without raising exactly when no question's comparison raises |
| DataStore.ScreenFailure | datastore/datastore.py:58-77 | when the loop raises, the error is that of some question, and exactly the saves of the questions before it were issued |
| DataStore.ScreenTrace | datastore/datastore.py:58-77 | the saved questions are, in iteration order, exactly the novel ones: each has an embedding and is saved with its own text and embedding text; a question without an embedding is never saved |
| DataStore.BatchTwinsBothSaved | datastore/datastore.py:55-77 | two novel questions are both saved, in order, however similar they are to each other |
| DataStore.DuplicateInBatchSavedTwice | datastore/datastore.py:55-77 | with nothing stored, the same question generated twice is saved twice, though it is its own near-duplicate |
| DataStore.ScreenQuestions | datastore/datastore.py:63-77 | the question loop of one chunk continues the screening of the questions before it |
| DataStore.ScreenChunks | datastore/datastore.py:60-77 | the chunk loop continues the screening over the chunk's questions in order |
| DataStore.ScreenDocuments | datastore/datastore.py:58-77 | the document loop screens all questions in document, chunk and question order |
| DataStore.Upsert | datastore/datastore.py:29-79 | deletes are for the documents with truthy ids; a failed read of stored embeddings saves nothing; otherwise the saves are the screening's against that single list; on success `_upsert` gets the chunker's map unchanged |
| DataStore.QueryText | datastore/datastore.py:95 | the text embedded for a query is the chain banner followed by the query verbatim |
| DataStore.QueryTextRecoversQuery | datastore/datastore.py:95 | a query text is the banner followed by the query verbatim, so distinct queries of a chain have distinct texts |
| DataStore.QueryTexts | datastore/datastore.py:95 | one text per query, in order, each the banner plus the query |
| DataStore.Hydrate | datastore/datastore.py:98-101 | as many hydrated queries as the shorter list, the i-th pairing query i with embedding i |
| DataStore.PrepareQueries | datastore/datastore.py:90-101 | no queries means no request; otherwise one batch of banner texts goes to the ada model, and query i is paired with embedding i as far as both lists reach |
| DataStore.NoQueryDropped | datastore/datastore.py:98-101 | when the API returns an embedding per text, every query is hydrated and the queries come back unchanged and in order |

## Left out

- The `edit_question_*` functions of services/dynamodb.py (lines 10-62): the file does not parse as written, because commas are missing in their argument lists. They also write an `archive` attribute, while reads use `archived`.
- The waits of the retry decorators (`wait_random_exponential(min=20, max=60)`): timing only. The number of attempts of `get_chat_completion` is modelled.
- OpenAi.GetChatCompletion: the API parameter is a function, so every attempt of a request receives the same reply; a remote call that fails and then succeeds on a later attempt is not modelled.
- OpenAi.GetEmbeddings: its retry decorator has no in-process exception to retry, because the API parameter always answers; remote failures are outside the process.
- Floating point: `str(float)` and `float(str)` are parameters, and numbers are exact reals. Not modelled: rounding near the 0.9 threshold; underflow of the norm product, which in floats can raise `ZeroDivisionError` for non-zero vectors; overflow to infinity and the NaN it leads to, which makes `> 0.9` false; and texts such as `nan` or `inf`, which `float` accepts but the `parse: string -> Option<real>` parameter cannot return.
- `print` calls: no effect on results.
- The concurrency of `asyncio.gather` for deletes: only which deletes are requested is modelled, not their order or failure.
- The delete calls themselves and `_upsert` / `_query`: these are store-specific and abstract in the source. The model records the delete ids and the chunk map or queries handed over, not what the store returns.
- The writes the upsert's saves perform: `DataStore.Upsert` yields the list of save calls. The effect of one call on a table is `DynamoDb.SaveQuestion`, not applied to a table state across an upsert.
- `get_document_chunks` (services/chunks.py) and the `models.models` types are not part of this model. The chunker is a parameter returning the document-to-chunks map as its items in iteration order.
- DynamoDb.QueryQuestionEmbeddings: result pages are not followed, because the code does not follow them either. services/dynamodb.py:82-91 makes one `table.query` call and reads `response['Items']` without `LastEvaluatedKey`, so stored questions beyond the first result page are never compared against. The model takes the items of that one page as its parameter.
- The default `question_count=3` of `extract_questions_from_text` is `ExtractQuestions.DefaultQuestionCount`. `ExtractQuestions.Extract` takes the count from its caller, since filling in a default argument is the caller's concern.
- Supabase `query_questions` (services/supabase.py:10-25): it copies `id` and the seven question fields of each row into a record. Unlike its DynamoDB twin, which is modelled, it reads each field as an attribute (`entry.chain`) rather than with `.get`. Whether that succeeds depends on the row objects the client library returns, which are outside this model.
- Supabase.QueryQuestionEmbeddings: each row is taken to allow attribute access to its embedding (`entry.embedding`, services/supabase.py:31), and the model takes the rows' embedding cells as its parameter. If the client library hands back the rows as plain dicts, the code raises `AttributeError` at the first row; that case is not modelled.
- The Supabase table names: the insert goes to "stakex_cms_questions", while the reads go to "idx_stakex_cms_questions_chain". The reads' rows are a parameter, so whether the two tables share rows is not modelled.
- Exceptions raised by the remote calls themselves (network errors, malformed responses other than an empty choice list, a DynamoDB `put_item` failure): outside the process.
- `DataStore.Upsert` reads the stored embeddings through the DynamoDB variant, because that is the module datastore/datastore.py imports.
- The `try`/`except` of services/extract_questions.py:27-31 has no branch of its own in the model, because stripping and filtering the lines of a string cannot raise.

=== FILE: base.dfy ===
/** Shared vocabulary: optional values, results that carry the Python
    exception a call would raise, and index traces that witness an ordered
    selection from a sequence. */
module Base {

  /** Python's `None` versus a present value. */
  datatype Option<+T> = None | Some(value: T)

  /** The Python exceptions the modelled code can raise. */
  datatype PyError =
    | IndexError         // subscript past the end of a list
    | ZeroDivisionError  // division by a zero float
    | AttributeError     // `.split` on `None` or on a non-string
    | ValueError         // `float(x)` on text that is not a number
    | AssertionError     // a failed `assert`
    | RetryError         // tenacity giving up after its last attempt failed

  /** Either the value a call returns, or the exception it raises. */
  datatype Result<+R> = Ok(value: R) | Err(error: PyError)

  function Min(a: int, b: int): int
  {
    if a <= b then a else b
  }

  /** `idx` lists positions of a sequence of length `n`, in increasing order. */
  ghost predicate IsTrace(idx: seq<nat>, n: nat)
  {
    && (forall k :: 0 <= k < |idx| ==> idx[k] < n)
    && (forall a, b :: 0 <= a < b < |idx| ==> idx[a] < idx[b])
  }

  /** Python's `zip`: pairs elements positionally and stops at the shorter list. */
  function Zip<A, B>(xs: seq<A>, ys: seq<B>): (r: seq<(A, B)>)
    ensures |r| == Min(|xs|, |ys|)
    ensures forall i :: 0 <= i < |r| ==> r[i] == (xs[i], ys[i])
  {
    if |xs| == 0 || |ys| == 0 then [] else [(xs[0], ys[0])] + Zip(xs[1..], ys[1..])
  }

  /** `[f(x) for x in xs]` with the `None`s dropped: the values `f` gives, in
      order. */
  function FilterMap<A, B>(xs: seq<A>, f: A -> Option<B>): (r: seq<B>)
    ensures |r| <= |xs|
  {
    if |xs| == 0 then []
    else
      var last := f(xs[|xs| - 1]);
      FilterMap(xs[..|xs| - 1], f) + (if last.Some? then [last.value] else [])
  }

  /** `FilterMap` keeps one value for exactly the elements `f` maps to a
      value: `idx` lists those positions in increasing order, and the k-th
      kept value is what `f` gives at the k-th of them. */
  lemma {:induction false} FilterMapTrace<A, B>(xs: seq<A>, f: A -> Option<B>) returns (idx: seq<nat>)
    ensures |idx| == |FilterMap(xs, f)|
    ensures IsTrace(idx, |xs|)
    ensures forall k :: 0 <= k < |idx| ==> f(xs[idx[k]]) == Some(FilterMap(xs, f)[k])
    ensures forall i :: 0 <= i < |xs| ==> (f(xs[i]).Some? <==> i in idx)
  {
    if |xs| == 0 {
      idx := [];
    } else {
      var n := |xs| - 1;
      var init := xs[..n];
      var pre := FilterMapTrace(init, f);
      assert forall i :: 0 <= i < n ==> init[i] == xs[i];
      if f(xs[n]).Some? {
        idx := pre + [n];
        assert FilterMap(xs, f) == FilterMap(init, f) + [f(xs[n]).value];
      } else {
        idx := pre;
        assert FilterMap(xs, f) == FilterMap(init, f) + [];
      }
    }
  }

  /** The values kept from a prefix come first among the values kept. */
  lemma {:induction false} FilterMapPrefix<A, B>(xs: seq<A>, f: A -> Option<B>, j: nat)
    requires j <= |xs|
    ensures FilterMap(xs[..j], f) <= FilterMap(xs, f)
    decreases |xs| - j
  {
    if j < |xs| {
      var init := xs[..|xs| - 1];
      FilterMapPrefix(init, f, j);
      assert init[..j] == xs[..j];
    } else {
      assert xs[..j] == xs;
    }
  }

  /** Extending the input by one element extends the output by at most the
      value `f` gives for it. */
  lemma FilterMapSnoc<A, B>(xs: seq<A>, f: A -> Option<B>, i: nat)
    requires i < |xs|
    ensures FilterMap(xs[..i + 1], f)
            == FilterMap(xs[..i], f) + (if f(xs[i]).Some? then [f(xs[i]).value] else [])
  {
    assert xs[..i + 1][..i] == xs[..i];
  }
}

=== FILE: codec.dfy ===
/** The text form of an embedding in the question table: the components'
    decimal texts joined by commas when a question is saved
    (datastore/datastore.py:76), split on commas and parsed back when the
    stored embeddings are read (services/dynamodb.py:89,
    services/supabase.py:33).

    Python's `str(float)` and `float(str)` are not modelled: they are the
    parameters `show` and `parse`, with `parse` answering `None` where
    `float` raises `ValueError`. */
module EmbeddingText {
  import opened Base
  import opened PyStr
  import opened Similarity

  /** `[str(x) for x in v]`. */
  function Texts(v: Vector, show: real -> string): (r: seq<string>)
    ensures |r| == |v| && forall i :: 0 <= i < |v| ==> r[i] == show(v[i])
  {
    if |v| == 0 then [] else [show(v[0])] + Texts(v[1..], show)
  }

  /** `','.join([str(x) for x in v])`: when no component's text holds a
      comma, splitting at the commas gives back the component texts. */
  function Encode(v: Vector, show: real -> string): (r: string)
    ensures |v| >= 1 && (forall i :: 0 <= i < |v| ==> ',' !in show(v[i])) ==> Split(r, ',') == Texts(v, show)
  {
    var texts := Texts(v, show);
    assert |v| >= 1 && (forall i :: 0 <= i < |v| ==> ',' !in show(v[i])) ==> Split(Join(texts, ','), ',') == texts by {
      if |v| >= 1 && (forall i :: 0 <= i < |v| ==> ',' !in show(v[i])) {
        SplitJoin(texts, ',');
      }
    }
    Join(texts, ',')
  }

  /** `[float(x) for x in parts]`, raising at the first part that is not a number. */
  function ParseAll(parts: seq<string>, parse: string -> Option<real>): (r: Result<Vector>)
    ensures r.Ok? <==> forall i :: 0 <= i < |parts| ==> parse(parts[i]).Some?
    ensures r.Err? ==> r.error == ValueError
    ensures r.Ok? ==> |r.value| == |parts| && forall i :: 0 <= i < |parts| ==> parse(parts[i]) == Some(r.value[i])
  {
    if |parts| == 0 then Ok([])
    else match parse(parts[0])
      case None => Err(ValueError)
      case Some(x) =>
        match ParseAll(parts[1..], parse)
        case Err(e) => Err(e)
        case Ok(xs) => Ok([x] + xs)
  }

  /** `[float(x) for x in s.split(",")]`: one component per comma-separated
      piece, so one more than the number of commas. */
  function Decode(s: string, parse: string -> Option<real>): (r: Result<Vector>)
    ensures r.Ok? <==> forall i :: 0 <= i < |Split(s, ',')| ==> parse(Split(s, ',')[i]).Some?
    ensures r.Err? ==> r.error == ValueError
    ensures r.Ok? ==> |r.value| == Count(s, ',') + 1
    ensures r.Ok? ==> forall i :: 0 <= i < |Split(s, ',')| ==> parse(Split(s, ',')[i]) == Some(r.value[i])
  {
    var r := ParseAll(Split(s, ','), parse);
    assert r.Err? ==> exists i :: 0 <= i < |Split(s, ',')| && parse(Split(s, ',')[i]).None?;
    r
  }

  /** `parse` reads back the text `show` writes for each component of `v`,
      and no such text holds a comma. Python's `float(str(x))` gives back
      every finite float `x`, and the text holds no comma. */
  ghost predicate Faithful(v: Vector, show: real -> string, parse: string -> Option<real>)
  {
    forall i :: 0 <= i < |v| ==> ',' !in show(v[i]) && parse(show(v[i])) == Some(v[i])
  }

  /** `Faithful` can be met: a one-component embedding whose number is
      written as "0.5" and read back from it. */
  lemma FaithfulExample()
    ensures Faithful([0.5], x => "0.5", t => if t == "0.5" then Some(0.5) else None)
  {
  }

  /** Decoding the text written for a non-empty embedding gives the embedding back. */
  lemma DecodeEncode(v: Vector, show: real -> string, parse: string -> Option<real>)
    requires Faithful(v, show, parse)
    requires |v| >= 1
    ensures Decode(Encode(v, show), parse) == Ok(v)
  {
    var parts := Texts(v, show);
    forall i | 0 <= i < |parts|
      ensures ',' !in parts[i] && parse(parts[i]) == Some(v[i])
    {
      assert parts[i] == show(v[i]);
    }
    SplitJoin(parts, ',');
    var r := ParseAll(parts, parse);
    assert r.Ok?;
    assert r.value == v;
  }

  /** The empty embedding is written as `""`, which splits into one empty
      piece, so it does not read back: Python's `float("")` raises. */
  lemma EmptyEmbeddingText(show: real -> string, parse: string -> Option<real>)
    requires parse("") == None
    ensures Encode([], show) == ""
    ensures Decode(Encode([], show), parse) == Err(ValueError)
  {
    assert Split("", ',') == [""];
  }
}

=== FILE: datastore.dfy ===
/** The question-ingestion and query-preparation paths of
    datastore/datastore.py: which deletes an upsert requests, the
    near-duplicate filter that decides which generated questions are saved,
    the pass-through of the chunks to the store, and the banner-and-zip
    preparation of queries.

    The chunker, the stored items the embedding query returns, the
    store-specific `_upsert` and `_query`, and the text forms of floats are
    parameters or left out. */
module DataStore {
  import opened Base
  import opened Similarity
  import opened EmbeddingText
  import opened OpenAi
  import DynamoDb

  /** A document to ingest; only its id matters before chunking. */
  datatype Document = Document(id: Option<string>, text: string)

  /** A question generated for a chunk, with its embedding if it has one. */
  datatype Question = Question(text: string, embedding: Option<Vector>)

  /** A chunk of a document and the questions generated for it. */
  datatype DocumentChunk = DocumentChunk(text: string, questions: seq<Question>)

  /** The dict `get_document_chunks` returns, as its items in iteration
      order: document id to that document's chunks. */
  type ChunkMap = seq<(string, seq<DocumentChunk>)>

  /** Python truthiness of an optional id: present and not empty. */
  predicate Truthy(id: Option<string>)
  {
    id.Some? && id.value != ""
  }

  /** The id a delete is requested for, if the document has a truthy one. */
  function DeleteFor(document: Document): (r: Option<string>)
    ensures r.Some? <==> Truthy(document.id)
    ensures r.Some? ==> document.id == Some(r.value)
  {
    if Truthy(document.id) then document.id else None
  }

  /** In `upsert`, the document ids deletes are requested for, in document
      order. */
  function DeleteTargets(documents: seq<Document>): (r: seq<string>)
    ensures |r| <= |documents|
  {
    FilterMap(documents, DeleteFor)
  }

  /** One delete per document with a truthy id and none for any other: `idx`
      lists those documents in order, and the k-th delete names the k-th. */
  lemma DeleteTargetsTrace(documents: seq<Document>) returns (idx: seq<nat>)
    ensures |idx| == |DeleteTargets(documents)|
    ensures IsTrace(idx, |documents|)
    ensures forall k :: 0 <= k < |idx| ==> documents[idx[k]].id == Some(DeleteTargets(documents)[k])
    ensures forall i :: 0 <= i < |documents| ==> (Truthy(documents[i].id) <==> i in idx)
  {
    idx := FilterMapTrace(documents, DeleteFor);
    forall k | 0 <= k < |idx|
      ensures documents[idx[k]].id == Some(DeleteTargets(documents)[k])
    {
      assert DeleteFor(documents[idx[k]]) == Some(DeleteTargets(documents)[k]);
    }
  }

  /** The comparison loop of `upsert`, as a value: comparing a candidate embedding with every
      stored one. There is no `break`, so the verdict is whether SOME stored
      embedding is similar, and every comparison runs: the first one that
      raises makes the whole comparison raise. */
  function Verdict(stored: seq<Vector>, e: Vector): (r: Result<bool>)
    ensures r.Ok? <==> forall i :: 0 <= i < |stored| ==> Similar(stored[i], e).Ok?
    ensures r.Ok? ==> (r.value <==> exists i :: 0 <= i < |stored| && Similar(stored[i], e) == Ok(true))
    ensures r.Err? ==> exists i :: 0 <= i < |stored| && Similar(stored[i], e) == Err(r.error)
                                   && (forall j :: 0 <= j < i ==> Similar(stored[j], e).Ok?)
  {
    if |stored| == 0 then Ok(false)
    else
      var n := |stored| - 1;
      var init := stored[..n];
      assert forall i :: 0 <= i < n ==> init[i] == stored[i];
      match Verdict(init, e)
      case Err(x) => Err(x)
      case Ok(b) =>
        match Similar(stored[n], e)
        case Err(x) => Err(x)
        case Ok(s) => Ok(b || s)
  }

  /** Once a prefix of the stored embeddings raises, so does the whole list. */
  lemma {:induction false} VerdictErrPrefix(stored: seq<Vector>, e: Vector, j: nat)
    requires j <= |stored| && Verdict(stored[..j], e).Err?
    ensures Verdict(stored, e) == Verdict(stored[..j], e)
    decreases |stored| - j
  {
    if j < |stored| {
      var init := stored[..|stored| - 1];
      assert init[..j] == stored[..j];
      VerdictErrPrefix(init, e, j);
    } else {
      assert stored[..j] == stored;
    }
  }

  /** The comparison loop of `upsert` over the stored embeddings. */
  method CompareWithStored(stored: seq<Vector>, e: Vector) returns (r: Result<bool>)
    ensures r == Verdict(stored, e)
  {
    var alreadyExtracted := false;
    var i := 0;
    while i < |stored|
      invariant i <= |stored|
      invariant Verdict(stored[..i], e) == Ok(alreadyExtracted)
    {
      assert stored[..i + 1][..i] == stored[..i];
      var similarity := CosineSimilarity(stored[i], e);
      if similarity.Err? {
        VerdictErrPrefix(stored, e, i + 1);
        return Err(similarity.error);
      }
      if Exceeds(similarity.value, Threshold) {
        alreadyExtracted := true;
      }
      i := i + 1;
    }
    assert stored[..i] == stored;
    return Ok(alreadyExtracted);
  }

  /** A question is novel when it has an embedding that no stored embedding
      is similar to. */
  predicate Novel(stored: seq<Vector>, q: Question)
  {
    q.embedding.Some? && Verdict(stored, q.embedding.value) == Ok(false)
  }

  /** The arguments of one `save_question_to_db` call. */
  datatype SaveCall = SaveCall(chain: string, question: string, embedding: string)

  /** The call that saves `q`, with its embedding written as comma-joined
      text as `upsert` joins it. */
  function SaveOf(chain: string, show: real -> string, q: Question): SaveCall
    requires q.embedding.Some?
  {
    SaveCall(chain, q.text, Encode(q.embedding.value, show))
  }

  /** What `upsert` does with one question: skipped when it has no embedding or a
      similar stored one, saved when it is novel, and raising when a
      comparison raises. */
  function Decide(stored: seq<Vector>, chain: string, show: real -> string, q: Question): (r: Result<Option<SaveCall>>)
    ensures r.Ok? && r.value.Some? <==> Novel(stored, q)
    ensures r.Ok? && r.value.Some? ==> r.value.value == SaveOf(chain, show, q)
    ensures r.Err? <==> q.embedding.Some? && Verdict(stored, q.embedding.value).Err?
    ensures r.Err? ==> Verdict(stored, q.embedding.value) == Err(r.error)
  {
    if q.embedding.None? then Ok(None)
    else
      match Verdict(stored, q.embedding.value)
      case Err(x) => Err(x)
      case Ok(similar) => if similar then Ok(None) else Ok(Some(SaveOf(chain, show, q)))
  }

  /** What the question loop has done so far: the saves it issued, and the
      exception that stopped it, if one did. */
  datatype Screening = Screening(saves: seq<SaveCall>, failure: Option<PyError>)

  /** The question loop over questions in iteration order, as a value. */
  function Screen(stored: seq<Vector>, qs: seq<Question>, chain: string, show: real -> string): (r: Screening)
    ensures |r.saves| <= |qs|
  {
    if |qs| == 0 then Screening([], None)
    else
      var acc := Screen(stored, qs[..|qs| - 1], chain, show);
      if acc.failure.Some? then acc
      else
        match Decide(stored, chain, show, qs[|qs| - 1])
        case Err(x) => Screening(acc.saves, Some(x))
        case Ok(None) => acc
        case Ok(Some(call)) => Screening(acc.saves + [call], None)
  }

  /** The save a question leads to when no comparison raises. */
  function SaveFor(stored: seq<Vector>, chain: string, show: real -> string): Question -> Option<SaveCall>
  {
    q => if Novel(stored, q) then Some(SaveOf(chain, show, q)) else None
  }

  /** Without a failure, the loop saves exactly what the filter keeps. */
  lemma {:induction false} ScreenIsFilter(stored: seq<Vector>, qs: seq<Question>, chain: string, show: real -> string)
    requires Screen(stored, qs, chain, show).failure.None?
    ensures Screen(stored, qs, chain, show).saves == FilterMap(qs, SaveFor(stored, chain, show))
  {
    if |qs| > 0 {
      var init := qs[..|qs| - 1];
      ScreenIsFilter(stored, init, chain, show);
    }
  }

  /** The loop finishes without raising exactly when no question's
      comparison raises. */
  lemma {:induction false} ScreenCompletes(stored: seq<Vector>, qs: seq<Question>, chain: string, show: real -> string)
    ensures Screen(stored, qs, chain, show).failure.None? <==>
              forall i :: 0 <= i < |qs| ==> Decide(stored, chain, show, qs[i]).Ok?
  {
    if Screen(stored, qs, chain, show).failure.Some? {
      var i := ScreenFailure(stored, qs, chain, show);
      assert !Decide(stored, chain, show, qs[i]).Ok?;
    } else if |qs| > 0 {
      var n := |qs| - 1;
      var init := qs[..n];
      assert Screen(stored, init, chain, show).failure.None? && Decide(stored, chain, show, qs[n]).Ok?;
      ScreenCompletes(stored, init, chain, show);
      forall i | 0 <= i < |qs|
        ensures Decide(stored, chain, show, qs[i]).Ok?
      {
        if i < n {
          assert init[i] == qs[i];
          assert Decide(stored, chain, show, init[i]).Ok?;
        } else {
          assert i == n;
        }
      }
    }
  }

  /** When the loop raises, the error is that of the comparison of question
      `i`, and the saves issued are those of the questions before it and no
      more. */
  lemma {:induction false} ScreenFailure(stored: seq<Vector>, qs: seq<Question>, chain: string, show: real -> string)
    returns (i: nat)
    requires Screen(stored, qs, chain, show).failure.Some?
    ensures i < |qs|
    ensures Decide(stored, chain, show, qs[i]) == Err(Screen(stored, qs, chain, show).failure.value)
    ensures Screen(stored, qs[..i], chain, show) == Screening(Screen(stored, qs, chain, show).saves, None)
  {
    var n := |qs| - 1;
    var init := qs[..n];
    var acc := Screen(stored, init, chain, show);
    if acc.failure.Some? {
      i := ScreenFailure(stored, init, chain, show);
      assert init[i] == qs[i];
      assert init[..i] == qs[..i];
    } else {
      i := n;
      assert init == qs[..i];
    }
  }

  /** The loop's saves, when nothing raises: `idx` lists the saved questions
      in iteration order; each saved question has an embedding and is saved
      with its own text and embedding text; and the questions saved are
      exactly the novel ones. A question without an embedding is never
      saved, and the comparison set is the stored list alone. */
  lemma ScreenTrace(stored: seq<Vector>, qs: seq<Question>, chain: string, show: real -> string) returns (idx: seq<nat>)
    requires Screen(stored, qs, chain, show).failure.None?
    ensures var saves := Screen(stored, qs, chain, show).saves;
      && |idx| == |saves|
      && IsTrace(idx, |qs|)
      && (forall k :: 0 <= k < |idx| ==> qs[idx[k]].embedding.Some? && saves[k] == SaveOf(chain, show, qs[idx[k]]))
      && (forall i :: 0 <= i < |qs| ==> (Novel(stored, qs[i]) <==> i in idx))
  {
    ScreenIsFilter(stored, qs, chain, show);
    var f := SaveFor(stored, chain, show);
    idx := FilterMapTrace(qs, f);
    var saves := Screen(stored, qs, chain, show).saves;
    forall k | 0 <= k < |idx|
      ensures qs[idx[k]].embedding.Some? && saves[k] == SaveOf(chain, show, qs[idx[k]])
    {
      assert f(qs[idx[k]]) == Some(saves[k]);
    }
    forall i | 0 <= i < |qs|
      ensures Novel(stored, qs[i]) <==> i in idx
    {
      assert f(qs[i]).Some? <==> Novel(stored, qs[i]);
    }
  }

  /** Two new questions with embeddings that no stored embedding resembles
      are both saved, in order, whatever they are to each other: the
      comparison set is never extended with questions saved in the same
      batch. */
  lemma BatchTwinsBothSaved(stored: seq<Vector>, q1: Question, q2: Question, chain: string, show: real -> string)
    requires Novel(stored, q1) && Novel(stored, q2)
    ensures Screen(stored, [q1, q2], chain, show)
            == Screening([SaveOf(chain, show, q1), SaveOf(chain, show, q2)], None)
  {
    ScreenSnoc(stored, [], q1, chain, show);
    assert [] + [q1] == [q1];
    ScreenSnoc(stored, [q1], q2, chain, show);
    assert [q1] + [q2] == [q1, q2];
  }

  /** For instance, with nothing stored, the same question generated twice is
      saved twice, though its embedding is similar to itself. */
  lemma DuplicateInBatchSavedTwice(chain: string, show: real -> string)
    ensures var q := Question("What is staking?", Some([1.0]));
      && Similar([1.0], [1.0]) == Ok(true)
      && Screen([], [q, q], chain, show) == Screening([SaveOf(chain, show, q), SaveOf(chain, show, q)], None)
  {
    var q := Question("What is staking?", Some([1.0]));
    SelfSimilarity([1.0]);
    assert !IsZeroUpTo([1.0], 1) by {
      assert Dot([1.0], [1.0], 1) == 1.0;
      SumOfSquares([1.0], 1);
    }
    BatchTwinsBothSaved([], q, q, chain, show);
  }

  /** The questions of a chunk list, chunk by chunk. */
  function ChunkQuestions(chunks: seq<DocumentChunk>): seq<Question>
  {
    if |chunks| == 0 then []
    else ChunkQuestions(chunks[..|chunks| - 1]) + chunks[|chunks| - 1].questions
  }

  /** The questions of a chunk map, document by document, in the order the loops of `upsert` visit them. */
  function MapQuestions(m: ChunkMap): seq<Question>
  {
    if |m| == 0 then []
    else MapQuestions(m[..|m| - 1]) + ChunkQuestions(m[|m| - 1].1)
  }

  lemma {:induction false} ChunkQuestionsPrefix(chunks: seq<DocumentChunk>, c: nat)
    requires c <= |chunks|
    ensures ChunkQuestions(chunks[..c]) <= ChunkQuestions(chunks)
    decreases |chunks| - c
  {
    if c < |chunks| {
      var init := chunks[..|chunks| - 1];
      assert init[..c] == chunks[..c];
      ChunkQuestionsPrefix(init, c);
    } else {
      assert chunks[..c] == chunks;
    }
  }

  lemma ChunkQuestionsSnoc(chunks: seq<DocumentChunk>, c: nat)
    requires c < |chunks|
    ensures ChunkQuestions(chunks[..c + 1]) == ChunkQuestions(chunks[..c]) + chunks[c].questions
  {
    assert chunks[..c + 1][..c] == chunks[..c];
  }

  lemma {:induction false} MapQuestionsPrefix(m: ChunkMap, d: nat)
    requires d <= |m|
    ensures MapQuestions(m[..d]) <= MapQuestions(m)
    decreases |m| - d
  {
    if d < |m| {
      var init := m[..|m| - 1];
      assert init[..d] == m[..d];
      MapQuestionsPrefix(init, d);
    } else {
      assert m[..d] == m;
    }
  }

  lemma MapQuestionsSnoc(m: ChunkMap, d: nat)
    requires d < |m|
    ensures MapQuestions(m[..d + 1]) == MapQuestions(m[..d]) + ChunkQuestions(m[d].1)
  {
    assert m[..d + 1][..d] == m[..d];
  }

  lemma PrefixAfter<T>(done: seq<T>, x: seq<T>, y: seq<T>)
    requires x <= y
    ensures done + x <= done + y
  {
    assert (done + y)[..|done + x|] == done + x;
  }

  /** Once the loop has raised, later questions change nothing. */
  lemma {:induction false} ScreenStaysFailed(stored: seq<Vector>, a: seq<Question>, b: seq<Question>, chain: string, show: real -> string)
    requires a <= b && Screen(stored, a, chain, show).failure.Some?
    ensures Screen(stored, b, chain, show) == Screen(stored, a, chain, show)
    decreases |b|
  {
    if |a| < |b| {
      var init := b[..|b| - 1];
      assert a == init[..|a|];
      ScreenStaysFailed(stored, a, init, chain, show);
    } else {
      assert a == b;
    }
  }

  /** Screening one more question. */
  lemma ScreenSnoc(stored: seq<Vector>, done: seq<Question>, q: Question, chain: string, show: real -> string)
    ensures Screen(stored, done + [q], chain, show)
            == var acc := Screen(stored, done, chain, show);
               if acc.failure.Some? then acc
               else match Decide(stored, chain, show, q)
                    case Err(x) => Screening(acc.saves, Some(x))
                    case Ok(None) => acc
                    case Ok(Some(call)) => Screening(acc.saves + [call], None)
  {
    assert (done + [q])[..|done|] == done;
  }

  /** The question loop of `upsert` for one chunk, continuing from the
      questions `done` visited before it. It stops at the first comparison
      that raises. */
  method ScreenQuestions(stored: seq<Vector>, chain: string, show: real -> string,
                         questions: seq<Question>, ghost done: seq<Question>, saves: seq<SaveCall>)
    returns (out: Screening)
    requires Screen(stored, done, chain, show) == Screening(saves, None)
    ensures out == Screen(stored, done + questions, chain, show)
  {
    var issued := saves;
    var j := 0;
    assert done + questions[..0] == done;
    while j < |questions|
      invariant j <= |questions|
      invariant Screen(stored, done + questions[..j], chain, show) == Screening(issued, None)
    {
      var question := questions[j];
      assert (done + questions[..j]) + [question] == done + questions[..j + 1];
      ScreenSnoc(stored, done + questions[..j], question, chain, show);
      if question.embedding == None {
        j := j + 1;
        continue;
      }
      var alreadyExtracted := CompareWithStored(stored, question.embedding.value);
      if alreadyExtracted.Err? {
        PrefixAfter(done, questions[..j + 1], questions);
        ScreenStaysFailed(stored, done + questions[..j + 1], done + questions, chain, show);
        return Screening(issued, Some(alreadyExtracted.error));
      }
      if alreadyExtracted.value {
        j := j + 1;
        continue;
      }
      var vector := Encode(question.embedding.value, show);
      issued := issued + [SaveCall(chain, question.text, vector)];
      j := j + 1;
    }
    assert questions[..j] == questions;
    return Screening(issued, None);
  }

  /** The chunk loop of `upsert` for one document, continuing from the
      questions `done` visited before it. */
  method ScreenChunks(stored: seq<Vector>, chain: string, show: real -> string,
                      chunkList: seq<DocumentChunk>, ghost done: seq<Question>, saves: seq<SaveCall>)
    returns (out: Screening)
    requires Screen(stored, done, chain, show) == Screening(saves, None)
    ensures out == Screen(stored, done + ChunkQuestions(chunkList), chain, show)
  {
    var issued := saves;
    var c := 0;
    assert done + ChunkQuestions(chunkList[..0]) == done;
    while c < |chunkList|
      invariant c <= |chunkList|
      invariant Screen(stored, done + ChunkQuestions(chunkList[..c]), chain, show) == Screening(issued, None)
    {
      ghost var before := done + ChunkQuestions(chunkList[..c]);
      ChunkQuestionsSnoc(chunkList, c);
      assert before + chunkList[c].questions == done + ChunkQuestions(chunkList[..c + 1]);
      var screened := ScreenQuestions(stored, chain, show, chunkList[c].questions, before, issued);
      if screened.failure.Some? {
        ChunkQuestionsPrefix(chunkList, c + 1);
        PrefixAfter(done, ChunkQuestions(chunkList[..c + 1]), ChunkQuestions(chunkList));
        ScreenStaysFailed(stored, done + ChunkQuestions(chunkList[..c + 1]), done + ChunkQuestions(chunkList), chain, show);
        return screened;
      }
      issued := screened.saves;
      c := c + 1;
    }
    assert chunkList[..c] == chunkList;
    return Screening(issued, None);
  }

  /** The document loop of `upsert` over the chunk map. */
  method ScreenDocuments(stored: seq<Vector>, chain: string, show: real -> string, chunks: ChunkMap)
    returns (out: Screening)
    ensures out == Screen(stored, MapQuestions(chunks), chain, show)
  {
    var saves: seq<SaveCall> := [];
    var d := 0;
    assert MapQuestions(chunks[..0]) == [];
    while d < |chunks|
      invariant d <= |chunks|
      invariant Screen(stored, MapQuestions(chunks[..d]), chain, show) == Screening(saves, None)
    {
      MapQuestionsSnoc(chunks, d);
      var screened := ScreenChunks(stored, chain, show, chunks[d].1, MapQuestions(chunks[..d]), saves);
      if screened.failure.Some? {
        MapQuestionsPrefix(chunks, d + 1);
        ScreenStaysFailed(stored, MapQuestions(chunks[..d + 1]), MapQuestions(chunks), chain, show);
        return screened;
      }
      saves := screened.saves;
      d := d + 1;
    }
    assert chunks[..d] == chunks;
    return Screening(saves, None);
  }

  /** The arguments of `get_document_chunks`. */
  datatype ChunkRequest = ChunkRequest(documents: seq<Document>, chunkTokenSize: Option<nat>, chain: string)

  /** What `upsert` did: the document ids it requested deletes for, the saves
      it issued, and either the chunk map it handed to `_upsert` or the
      exception that stopped it first. */
  datatype Upserted = Upserted(deletes: seq<string>, saves: seq<SaveCall>, result: Result<ChunkMap>)

  /** `DataStore.upsert(documents, chunk_token_size, chain)`, given the
      chunker, the items the stored-embedding query returns, and the text
      forms of floats.

      Deletes are requested for the documents with truthy ids. If reading
      the stored embeddings raises, nothing is saved. Otherwise the
      questions are screened in document, chunk, question order against
      that one list; if a comparison raises, the saves issued before it
      stand and the chunks are not upserted; and otherwise the chunk map
      reaches `_upsert` exactly as the chunker produced it. */
  method Upsert(documents: seq<Document>, chunkTokenSize: Option<nat>, chain: string,
                chunker: ChunkRequest -> ChunkMap, storedItems: seq<DynamoDb.Item>,
                parse: string -> Option<real>, show: real -> string)
    returns (o: Upserted)
    ensures o.deletes == DeleteTargets(documents)
    ensures var chunks := chunker(ChunkRequest(documents, chunkTokenSize, chain));
      var read := DynamoDb.QueryQuestionEmbeddings(storedItems, parse);
      && (read.Err? ==> o.saves == [] && o.result == Err(read.error))
      && (read.Ok? ==>
            var screening := Screen(read.value, MapQuestions(chunks), chain, show);
            && o.saves == screening.saves
            && o.result == (if screening.failure.Some? then Err(screening.failure.value) else Ok(chunks)))
    ensures o.result.Ok? ==> o.result.value == chunker(ChunkRequest(documents, chunkTokenSize, chain))
  {
    var deletes := DeleteTargets(documents);
    var chunks := chunker(ChunkRequest(documents, chunkTokenSize, chain));
    var read := DynamoDb.QueryQuestionEmbeddings(storedItems, parse);
    if read.Err? {
      return Upserted(deletes, [], Err(read.error));
    }
    var screened := ScreenDocuments(read.value, chain, show, chunks);
    if screened.failure.Some? {
      return Upserted(deletes, screened.saves, Err(screened.failure.value));
    }
    return Upserted(deletes, screened.saves, Ok(chunks));
  }

  /** A query; fields other than the query text are carried along unchanged. */
  datatype Query = Query(query: string, topK: nat)

  /** A query hydrated with its embedding. */
  datatype QueryWithEmbedding = QueryWithEmbedding(query: Query, embedding: Vector)

  /** The text placed before every query. */
  function Banner(chain: string): string
  {
    "This is regarding " + chain + ".\n"
  }

  /** In `query`, the text embedded for one query. */
  function QueryText(chain: string, q: Query): (r: string)
    ensures |r| == |Banner(chain)| + |q.query|
    ensures r[..|Banner(chain)|] == Banner(chain) && r[|Banner(chain)|..] == q.query
  {
    Banner(chain) + q.query
  }

  /** The query text gives back the query it was made from: the query
      follows the banner verbatim, so distinct queries of one chain have
      distinct texts. */
  lemma QueryTextRecoversQuery(chain: string, q1: Query, q2: Query)
    ensures QueryText(chain, q1)[..|Banner(chain)|] == Banner(chain)
    ensures QueryText(chain, q1)[|Banner(chain)|..] == q1.query
    ensures QueryText(chain, q1) == QueryText(chain, q2) ==> q1.query == q2.query
  {
    assert QueryText(chain, q2)[|Banner(chain)|..] == q2.query;
  }

  /** The texts embedded for a list of queries, one per query, in order. */
  function QueryTexts(chain: string, queries: seq<Query>): (r: seq<string>)
    ensures |r| == |queries|
    ensures forall i :: 0 <= i < |queries| ==> r[i] == QueryText(chain, queries[i])
  {
    if |queries| == 0 then [] else [QueryText(chain, queries[0])] + QueryTexts(chain, queries[1..])
  }

  /** In `query`, queries paired positionally with embeddings. */
  function Hydrate(queries: seq<Query>, embeddings: seq<Vector>): (r: seq<QueryWithEmbedding>)
    ensures |r| == Min(|queries|, |embeddings|)
    ensures forall i :: 0 <= i < |r| ==> r[i] == QueryWithEmbedding(queries[i], embeddings[i])
  {
    var pairs := Zip(queries, embeddings);
    seq(|pairs|, i requires 0 <= i < |pairs| => QueryWithEmbedding(pairs[i].0, pairs[i].1))
  }

  /** What `query` prepared: the embedding request it sent, if any, and the
      hydrated queries it handed to `_query`. */
  datatype Prepared = Prepared(request: Option<EmbeddingRequest>, hydrated: seq<QueryWithEmbedding>)

  /** `DataStore.query(queries, chain)` up to the call of `_query`, given the
      embedding API: every query text, banner first, goes out in one batch
      (none when there are no queries), and query i is paired with
      embedding i, as far as both lists reach. */
  function PrepareQueries(queries: seq<Query>, chain: string, api: EmbeddingRequest -> seq<Vector>): (p: Prepared)
    ensures p.request.None? <==> |queries| == 0
    ensures p.request.Some? ==> p.request.value.model == EmbeddingModel
    ensures p.request.Some? ==>
              && |p.request.value.input| == |queries|
              && forall i :: 0 <= i < |queries| ==> p.request.value.input[i] == QueryText(chain, queries[i])
    ensures p.request.None? ==> p.hydrated == []
    ensures p.request.Some? ==>
              && |p.hydrated| == Min(|queries|, |api(p.request.value)|)
              && forall i :: 0 <= i < |p.hydrated| ==>
                   p.hydrated[i] == QueryWithEmbedding(queries[i], api(p.request.value)[i])
  {
    var embedded := GetEmbeddings(QueryTexts(chain, queries), api);
    Prepared(embedded.request, Hydrate(queries, embedded.embeddings))
  }

  /** When the API returns at least one embedding per text, every query is
      hydrated, in order, and the queries can be read back unchanged. */
  lemma NoQueryDropped(queries: seq<Query>, chain: string, api: EmbeddingRequest -> seq<Vector>)
    requires |api(EmbeddingRequest(QueryTexts(chain, queries), EmbeddingModel))| >= |queries|
    ensures var hydrated := PrepareQueries(queries, chain, api).hydrated;
      && |hydrated| == |queries|
      && seq(|hydrated|, i requires 0 <= i < |hydrated| => hydrated[i].query) == queries
  {
    var p := PrepareQueries(queries, chain, api);
    if |queries| > 0 {
      assert p.request.value == EmbeddingRequest(QueryTexts(chain, queries), EmbeddingModel);
    }
  }
}

=== FILE: dynamodb.dfy ===
/** The DynamoDB question table of services/dynamodb.py: items keyed by the
    (chain, question) pair, the item a saved question becomes, and the two
    reads that map query results back to records and to embeddings.

    The query itself is not modelled: the items it returns for a chain are
    a parameter. */
module DynamoDb {
  import opened Base
  import opened PyStr
  import opened Similarity
  import opened EmbeddingText

  /** An attribute value as boto3 hands it back: a string or a boolean. */
  datatype AttrValue = Str(s: string) | Bool(b: bool)

  /** An item: attribute names to values. */
  type Item = map<string, AttrValue>

  /** `entry.get(name)`. */
  function Get(item: Item, name: string): Option<AttrValue>
  {
    if name in item then Some(item[name]) else None
  }

  /** The table, keyed by its partition key `chain` and sort key `question`. */
  type Table = map<(string, string), Item>

  /** The item `save_question_to_db` puts. */
  function QuestionItem(chain: string, question: string, embedding: string): Item
  {
    map["chain" := Str(chain), "question" := Str(question), "embedding" := Str(embedding)]
  }

  /** `save_question_to_db(chain, question, embedding)`: `put_item` writes an
      item with exactly the three attributes under the (chain, question) key,
      replacing whatever item had that key, and leaves every other item alone. */
  function SaveQuestion(table: Table, chain: string, question: string, embedding: string): (t: Table)
    ensures t.Keys == table.Keys + {(chain, question)}
    ensures forall k :: k in table && k != (chain, question) ==> t[k] == table[k]
    ensures t[(chain, question)].Keys == {"chain", "question", "embedding"}
    ensures Get(t[(chain, question)], "chain") == Some(Str(chain))
    ensures Get(t[(chain, question)], "question") == Some(Str(question))
    ensures Get(t[(chain, question)], "embedding") == Some(Str(embedding))
  {
    table[(chain, question) := QuestionItem(chain, question, embedding)]
  }

  /** Saving a question again overwrites it rather than adding a second item. */
  lemma SaveOverwrites(table: Table, chain: string, question: string, e1: string, e2: string)
    ensures SaveQuestion(SaveQuestion(table, chain, question, e1), chain, question, e2)
            == SaveQuestion(table, chain, question, e2)
  {
    var key := (chain, question);
    assert table[key := QuestionItem(chain, question, e1)][key := QuestionItem(chain, question, e2)]
           == table[key := QuestionItem(chain, question, e2)];
  }

  /** A save adds at most one item to the table. */
  lemma SaveAddsAtMostOne(table: Table, chain: string, question: string, embedding: string)
    ensures |SaveQuestion(table, chain, question, embedding).Keys| <= |table.Keys| + 1
  {
    var key := (chain, question);
    assert SaveQuestion(table, chain, question, embedding).Keys == table.Keys + {key};
    assert |table.Keys + {key}| <= |table.Keys| + |{key}|;
  }

  /** A saved item carries no answer, category or flags, even when the item
      it replaced did. */
  lemma SaveDropsOtherAttributes(table: Table, chain: string, question: string, embedding: string, name: string)
    requires name !in {"chain", "question", "embedding"}
    ensures Get(SaveQuestion(table, chain, question, embedding)[(chain, question)], name) == None
  {
  }

  /** The record `query_questions` builds from an item. Only the attributes
      the source copies are kept; each is `None` when the item lacks it. */
  datatype QuestionAnswer = QuestionAnswer(
    chain: Option<AttrValue>,
    question: Option<AttrValue>,
    embedding: Option<AttrValue>,
    archived: Option<AttrValue>,
    used: Option<AttrValue>,
    category: Option<AttrValue>,
    answer: Option<AttrValue>)

  function ToRecord(item: Item): QuestionAnswer
  {
    QuestionAnswer(
      Get(item, "chain"), Get(item, "question"), Get(item, "embedding"),
      Get(item, "archived"), Get(item, "used"), Get(item, "category"), Get(item, "answer"))
  }

  /** `query_questions(chain)` given the items the query returns: one record
      per item, in item order, each copying the seven named attributes. */
  function QueryQuestions(items: seq<Item>): (r: seq<QuestionAnswer>)
    ensures |r| == |items|
    ensures forall i :: 0 <= i < |items| ==>
              && r[i].chain == Get(items[i], "chain")
              && r[i].question == Get(items[i], "question")
              && r[i].embedding == Get(items[i], "embedding")
              && r[i].archived == Get(items[i], "archived")
              && r[i].used == Get(items[i], "used")
              && r[i].category == Get(items[i], "category")
              && r[i].answer == Get(items[i], "answer")
  {
    if |items| == 0 then [] else [ToRecord(items[0])] + QueryQuestions(items[1..])
  }

  /** A freshly saved question reads back with no archive flag, use flag,
      category or answer. */
  lemma FreshQuestionRecord(chain: string, question: string, embedding: string)
    ensures QueryQuestions([QuestionItem(chain, question, embedding)])
            == [QuestionAnswer(Some(Str(chain)), Some(Str(question)), Some(Str(embedding)),
                               None, None, None, None)]
  {
  }

  /** `[float(x) for x in entry.get("embedding").split(",")]`: a missing or
      non-string attribute has no `split` and raises `AttributeError`. */
  function ItemEmbedding(item: Item, parse: string -> Option<real>): (r: Result<Vector>)
    ensures r.Err? && r.error == AttributeError <==> !("embedding" in item && item["embedding"].Str?)
    ensures "embedding" in item && item["embedding"].Str? ==>
      var parts := Split(item["embedding"].s, ',');
      && (r.Ok? <==> forall i :: 0 <= i < |parts| ==> parse(parts[i]).Some?)
      && (r.Err? ==> r.error == ValueError)
      && (r.Ok? ==> |r.value| == |parts| && forall i :: 0 <= i < |parts| ==> parse(parts[i]) == Some(r.value[i]))
    ensures r.Ok? ==> |r.value| == Count(item["embedding"].s, ',') + 1
  {
    match Get(item, "embedding")
    case Some(Str(s)) =>
      var r := Decode(s, parse);
      assert r.Err? ==> exists i :: 0 <= i < |Split(s, ',')| && parse(Split(s, ',')[i]).None?;
      r
    case _ => Err(AttributeError)
  }

  /** `query_question_embeddings(chain)` given the items the query returns:
      exactly one vector per item, in item order, each with one component
      more than its text has commas; the first item that cannot be read
      raises its error. */
  function QueryQuestionEmbeddings(items: seq<Item>, parse: string -> Option<real>): (r: Result<seq<Vector>>)
    ensures r.Ok? <==> forall i :: 0 <= i < |items| ==> ItemEmbedding(items[i], parse).Ok?
    ensures r.Ok? ==> |r.value| == |items|
    ensures r.Ok? ==> forall i :: 0 <= i < |items| ==>
              && ItemEmbedding(items[i], parse) == Ok(r.value[i])
              && |r.value[i]| == Count(items[i]["embedding"].s, ',') + 1
    ensures r.Err? ==> exists i :: 0 <= i < |items| && ItemEmbedding(items[i], parse) == Err(r.error)
                                   && forall j :: 0 <= j < i ==> ItemEmbedding(items[j], parse).Ok?
  {
    if |items| == 0 then Ok([])
    else match ItemEmbedding(items[0], parse)
      case Err(e) => Err(e)
      case Ok(v) =>
        match QueryQuestionEmbeddings(items[1..], parse)
        case Err(e) => Err(e)
        case Ok(vs) => Ok([v] + vs)
  }

  /** The embedding text a save writes reads back as the embedding it encodes. */
  lemma SavedEmbeddingReadsBack(chain: string, question: string, v: Vector,
                                show: real -> string, parse: string -> Option<real>)
    requires Faithful(v, show, parse) && |v| >= 1
    ensures QueryQuestionEmbeddings([QuestionItem(chain, question, Encode(v, show))], parse) == Ok([v])
  {
    var item := QuestionItem(chain, question, Encode(v, show));
    DecodeEncode(v, show, parse);
    assert Get(item, "embedding") == Some(Str(Encode(v, show)));
    assert ItemEmbedding(item, parse) == Ok(v);
    assert [item][1..] == [];
    assert QueryQuestionEmbeddings([], parse) == Ok([]);
    assert [v] + [] == [v];
  }

  /** A question saved into any table reads back, from the item now under
      its key, as the embedding whose text was saved; read alone, that item
      gives exactly that one embedding. */
  lemma SaveThenReadEmbedding(table: Table, chain: string, question: string, v: Vector,
                              show: real -> string, parse: string -> Option<real>)
    requires Faithful(v, show, parse) && |v| >= 1
    ensures ItemEmbedding(SaveQuestion(table, chain, question, Encode(v, show))[(chain, question)], parse) == Ok(v)
    ensures QueryQuestionEmbeddings([SaveQuestion(table, chain, question, Encode(v, show))[(chain, question)]], parse) == Ok([v])
  {
    var item := SaveQuestion(table, chain, question, Encode(v, show))[(chain, question)];
    assert item == QuestionItem(chain, question, Encode(v, show));
    SavedEmbeddingReadsBack(chain, question, v, show, parse);
  }
}

=== FILE: extract_questions.dfy ===
/** Question extraction, services/extract_questions.py: a length guard, one
    chat completion, and the post-processing that turns the completion's
    lines into questions. */
module ExtractQuestions {
  import opened Base
  import opened PyStr
  import opened OpenAi

  /** Texts shorter than this are not sent for extraction. */
  const MinTextLength: nat := 50

  /** The characters `lstrip` removes from the front of each line: list
      numbering, bullets and spaces. */
  const NumberingChars: string := "0123456789.- "

  /** A kept question is longer than this. */
  const MinQuestionLength: nat := 7

  const ExtractModel: string := "gpt-3.5-turbo"

  /** The number of questions asked for when the caller passes none. */
  const DefaultQuestionCount: int := 3

  /** The system message, asking for `count` questions. */
  function ExtractPrompt(count: int): (r: string)
    ensures |r| > |ExtractPromptLead| + |ExtractPromptTail|
    ensures r[..|ExtractPromptLead|] == ExtractPromptLead
    ensures r[|ExtractPromptLead|..|r| - |ExtractPromptTail|] == IntToDecimal(count)
    ensures r[|r| - |ExtractPromptTail|..] == ExtractPromptTail
  {
    ExtractPromptLead + IntToDecimal(count) + ExtractPromptTail
  }

  const ExtractPromptLead: string :=
    "\n            Given some text from a user, try to come up with the top "

  const ExtractPromptTail: string :=
    " questions that this text answers.\n"
    + "            Questions must be succinct. Do not include people or user names in the questions.\n"
    + "            Respond with a line-separated list of the questions.\n"
    + "            "

  /** The prompt asks for the requested number of questions: the count's
      decimal digits sit right after the fixed lead and read back as the
      count. */
  lemma PromptStatesCount(count: nat)
    ensures var digits := ExtractPrompt(count)[|ExtractPromptLead|..|ExtractPromptLead| + |NatToDecimal(count)|];
      && digits == NatToDecimal(count)
      && DecimalValue(digits) == count
  {
    NatToDecimalRoundTrip(count);
    var p := ExtractPrompt(count);
    assert p == ExtractPromptLead + NatToDecimal(count) + ExtractPromptTail;
    assert p[|ExtractPromptLead|..|ExtractPromptLead| + |NatToDecimal(count)|] == NatToDecimal(count);
  }

  /** What a kept question looks like: longer than seven characters, and not
      starting with a numbering character. */
  predicate IsQuestion(q: string)
  {
    |q| > MinQuestionLength && q[0] !in NumberingChars
  }

  /** A line with its numbering removed, if it is long enough to keep. */
  function Candidate(line: string): (r: Option<string>)
    ensures r.Some? ==> IsQuestion(r.value)
  {
    var q := LStrip(line, NumberingChars);
    if |q| > MinQuestionLength then Some(q) else None
  }

  /** A candidate is what is left of its line once the numbering is removed:
      a suffix of the line, preceded only by numbering characters. A line
      gives none exactly when that remainder is seven characters or fewer. */
  lemma CandidateIsStrippedLine(line: string)
    ensures Candidate(line).Some? ==>
              && |Candidate(line).value| <= |line|
              && Candidate(line).value == line[|line| - |Candidate(line).value|..]
              && forall j :: 0 <= j < |line| - |Candidate(line).value| ==> line[j] in NumberingChars
    ensures Candidate(line).None? <==> |LStrip(line, NumberingChars)| <= MinQuestionLength
  {
    var q := LStrip(line, NumberingChars);
    assert q == line[|line| - |q|..];
  }

  /** The `try` block of `extract_questions_from_text`: strip each line's numbering, then keep what is longer than
      seven characters. */
  function KeepQuestions(lines: seq<string>): (r: seq<string>)
    ensures |r| <= |lines|
  {
    FilterMap(lines, Candidate)
  }

  /** Every kept question is a question, and a fixed point of the strip: it
      has no numbering left to remove. */
  lemma KeptAreQuestions(lines: seq<string>)
    ensures |KeepQuestions(lines)| <= |lines|
    ensures forall k :: 0 <= k < |KeepQuestions(lines)| ==>
              && IsQuestion(KeepQuestions(lines)[k])
              && LStrip(KeepQuestions(lines)[k], NumberingChars) == KeepQuestions(lines)[k]
  {
    var idx := FilterMapTrace(lines, Candidate);
    forall k | 0 <= k < |idx|
      ensures IsQuestion(KeepQuestions(lines)[k])
      ensures LStrip(KeepQuestions(lines)[k], NumberingChars) == KeepQuestions(lines)[k]
    {
      assert Candidate(lines[idx[k]]) == Some(KeepQuestions(lines)[k]);
    }
  }

  /** `idx` traces the lines that gave the kept questions: in increasing
      order, exactly the lines with a candidate, each kept question its
      line's candidate. */
  lemma KeepQuestionsTrace(lines: seq<string>) returns (idx: seq<nat>)
    ensures |idx| == |KeepQuestions(lines)|
    ensures IsTrace(idx, |lines|)
    ensures forall k :: 0 <= k < |idx| ==> Candidate(lines[idx[k]]) == Some(KeepQuestions(lines)[k])
    ensures forall i :: 0 <= i < |lines| ==> (Candidate(lines[i]).Some? <==> i in idx)
  {
    idx := FilterMapTrace(lines, Candidate);
  }

  /** What `extract_questions_from_text` did: the completion request it sent,
      if any, and the questions it returned or the exception it raised. */
  datatype Extraction = Extraction(request: Option<ChatRequest>, attempts: nat, questions: Result<seq<string>>)

  /** The lines of the completion an extraction received. */
  function CompletionLines(text: string, count: int, api: ChatRequest -> seq<string>): (r: seq<string>)
    ensures |text| < MinTextLength ==> r == []
    ensures |text| >= MinTextLength && |api(ChatRequest(ExtractModel, [Message(System, ExtractPrompt(count)), Message(User, text)]))| == 0 ==> r == []
    ensures |text| >= MinTextLength && |api(ChatRequest(ExtractModel, [Message(System, ExtractPrompt(count)), Message(User, text)]))| > 0 ==>
      r == SplitLines(Strip(api(ChatRequest(ExtractModel, [Message(System, ExtractPrompt(count)), Message(User, text)]))[0]))
  {
    if |text| < MinTextLength then []
    else
    var request := ChatRequest(ExtractModel, [Message(System, ExtractPrompt(count)), Message(User, text)]);
    var completion := GetChatCompletion(request.messages, request.model, api);
    if completion.result.Ok? then SplitLines(completion.result.value) else []
  }

  /** `extract_questions_from_text(text, question_count)`, given the chat
      API. Short text yields no questions and sends nothing. Otherwise the
      request goes to gpt-3.5-turbo with the system prompt and the text; a
      reply without choices is requested three times and then raises
      `RetryError`, outside the function's `try`; and each returned
      question is longer than seven characters and starts with no
      numbering character. */
  function Extract(text: string, count: int, api: ChatRequest -> seq<string>): (o: Extraction)
    ensures o.request.None? <==> |text| < MinTextLength
    ensures o.request.None? ==> o.questions == Ok([])
    ensures o.request.Some? ==> o.request.value.model == ExtractModel
    ensures o.request.Some? ==> o.request.value.messages == [Message(System, ExtractPrompt(count)), Message(User, text)]
    ensures o.questions.Err? <==> o.request.Some? && |api(o.request.value)| == 0
    ensures o.questions.Err? ==> o.questions.error == RetryError
    ensures o.attempts == (if o.request.None? then 0 else if o.questions.Err? then MaxAttempts else 1)
    ensures o.questions.Ok? ==> |o.questions.value| <= |CompletionLines(text, count, api)|
    ensures o.questions.Ok? ==> forall k :: 0 <= k < |o.questions.value| ==> IsQuestion(o.questions.value[k])
  {
    if |text| < MinTextLength then Extraction(None, 0, Ok([]))
    else
      var request := ChatRequest(ExtractModel, [Message(System, ExtractPrompt(count)), Message(User, text)]);
      var completion := GetChatCompletion(request.messages, request.model, api);
      if completion.result.Err? then Extraction(Some(request), |completion.sent|, Err(completion.result.error))
      else
        var lines := CompletionLines(text, count, api);
        KeptAreQuestions(lines);
        Extraction(Some(request), |completion.sent|, Ok(KeepQuestions(lines)))
  }

  /** The extracted questions are, in order, the stripped completion lines
      that are long enough, and every such line gives one. */
  lemma ExtractTrace(text: string, count: int, api: ChatRequest -> seq<string>) returns (idx: seq<nat>)
    ensures Extract(text, count, api).questions.Ok? ==>
      var qs := Extract(text, count, api).questions.value;
      var lines := CompletionLines(text, count, api);
      && |idx| == |qs|
      && IsTrace(idx, |lines|)
      && (forall k :: 0 <= k < |idx| ==> Candidate(lines[idx[k]]) == Some(qs[k]))
      && (forall i :: 0 <= i < |lines| ==> (Candidate(lines[i]).Some? <==> i in idx))
  {
    idx := KeepQuestionsTrace(CompletionLines(text, count, api));
  }
}

=== FILE: openai.dfy ===
/** The OpenAI calls of services/openai.py: batch embedding with its
    empty-input short circuit, chat completion with its stripped reply, and
    the message list `ask_with_chunks` assembles around one completion.

    The remote API is a parameter: it maps the request the code sends to the
    data the response carries. */
module OpenAi {
  import opened Base
  import opened PyStr
  import opened Similarity

  datatype Role = System | User | Assistant

  /** A chat message, `{"role": ..., "content": ...}`. */
  datatype Message = Message(role: Role, content: string)

  const EmbeddingModel: string := "text-embedding-ada-002"

  /** The arguments of `openai.Embedding.create`. */
  datatype EmbeddingRequest = EmbeddingRequest(input: seq<string>, model: string)

  /** What `get_embeddings` returned, and the request it sent, if any. */
  datatype Embedded = Embedded(embeddings: seq<Vector>, request: Option<EmbeddingRequest>)

  /** `get_embeddings(texts)`: no texts means no request and no embeddings;
      otherwise one request carries all the texts, in order, to the ada
      model, and the embeddings are those of the response's data items. */
  function GetEmbeddings(texts: seq<string>, api: EmbeddingRequest -> seq<Vector>): (r: Embedded)
    ensures r.request.None? <==> |texts| == 0
    ensures r.request.None? ==> r.embeddings == []
    ensures r.request.Some? ==> r.request.value.input == texts && r.request.value.model == EmbeddingModel
    ensures r.request.Some? ==> r.embeddings == api(r.request.value)
  {
    if |texts| == 0 then Embedded([], None)
    else
      var request := EmbeddingRequest(texts, EmbeddingModel);
      Embedded(api(request), Some(request))
  }

  /** The empty batch does not depend on the API at all. */
  lemma EmptyBatchNeedsNoApi(api1: EmbeddingRequest -> seq<Vector>, api2: EmbeddingRequest -> seq<Vector>)
    ensures GetEmbeddings([], api1) == GetEmbeddings([], api2) == Embedded([], None)
  {
  }

  /** The arguments of `openai.ChatCompletion.create` in `get_chat_completion`. */
  datatype ChatRequest = ChatRequest(model: string, messages: seq<Message>)

  /** tenacity's `stop_after_attempt(3)` on `get_chat_completion`. */
  const MaxAttempts: nat := 3

  /** What `get_chat_completion` did: the requests it sent, one per
      attempt, and the text it returned or the exception it raised. */
  datatype Completion = Completion(sent: seq<ChatRequest>, result: Result<string>)

  /** One attempt of `get_chat_completion` with `left` attempts to go,
      given the contents of the response's choices. The first choice with
      surrounding whitespace removed ends the retrying; a response without
      choices raises `IndexError` inside the attempt, which the decorator
      answers with the next attempt, and after the last one with
      `RetryError`. The API is a function, so every attempt of the same
      request receives the same response. */
  function Attempt(request: ChatRequest, api: ChatRequest -> seq<string>, left: nat): (c: Completion)
    requires left >= 1
    decreases left
    ensures 1 <= |c.sent| <= left
    ensures forall k :: 0 <= k < |c.sent| ==> c.sent[k] == request
    ensures c.result.Err? <==> |api(request)| == 0
    ensures c.result.Err? ==> c.result.error == RetryError && |c.sent| == left
    ensures c.result.Ok? ==> |c.sent| == 1 && c.result.value == Strip(api(request)[0])
  {
    var choices := api(request);
    if |choices| > 0 then Completion([request], Ok(Strip(choices[0])))
    else if left == 1 then Completion([request], Err(RetryError))
    else
      var rest := Attempt(request, api, left - 1);
      Completion([request] + rest.sent, rest.result)
  }

  /** `get_chat_completion(messages, model)` under its retry decorator.
      A response with choices is answered after one request with its first
      choice stripped of whitespace: a slice of that choice that neither
      starts nor ends with whitespace, everything cut off being whitespace.
      A response without choices is requested three times and ends in
      `RetryError`. */
  function GetChatCompletion(messages: seq<Message>, model: string, api: ChatRequest -> seq<string>): (c: Completion)
    ensures 1 <= |c.sent| <= MaxAttempts
    ensures forall k :: 0 <= k < |c.sent| ==> c.sent[k] == ChatRequest(model, messages)
    ensures c.result.Err? <==> |api(ChatRequest(model, messages))| == 0
    ensures c.result.Err? ==> c.result.error == RetryError && |c.sent| == MaxAttempts
    ensures c.result.Ok? ==> |c.sent| == 1
    ensures c.result.Ok? ==>
      var choice := api(ChatRequest(model, messages))[0];
      exists a, b :: 0 <= a <= b <= |choice| && c.result.value == choice[a..b]
                     && (forall j :: 0 <= j < a ==> choice[j] in Whitespace)
                     && (forall j :: b <= j < |choice| ==> choice[j] in Whitespace)
    ensures c.result.Ok? && |c.result.value| > 0 ==>
      c.result.value[0] !in Whitespace && c.result.value[|c.result.value| - 1] !in Whitespace
  {
    Attempt(ChatRequest(model, messages), api, MaxAttempts)
  }

  /** A completion that succeeds (the reply has choices) is already
      stripped: stripping it again changes nothing. */
  lemma CompletionIsStripped(messages: seq<Message>, model: string, api: ChatRequest -> seq<string>)
    requires |api(ChatRequest(model, messages))| > 0
    ensures Strip(GetChatCompletion(messages, model, api).result.value) == GetChatCompletion(messages, model, api).result.value
  {
    StripCharsIdempotent(api(ChatRequest(model, messages))[0], Whitespace);
  }

  /** The system message a fresh conversation starts with. */
  const AskSystemPrompt: string :=
    "You are helping find, extract and synthesize information from longer texts. "
    + "You are succinct and always change the extracted content to make it unique."

  /** The text of the prompt before the question. */
  const AskPromptHead: string :=
    "\n        By considering above input, answer the question without copying any text or infringing copyright: "

  /** The user prompt that carries the question. */
  function AskPrompt(question: string): (r: string)
    ensures |r| == |AskPromptHead| + |question| + 5
    ensures r[..|AskPromptHead|] == AskPromptHead
    ensures r[|AskPromptHead|..|AskPromptHead| + |question|] == question
    ensures r[|AskPromptHead| + |question|..] == "\n    "
  {
    AskPromptHead + question + "\n    "
  }

  /** The prompt holds the question verbatim, right after the fixed head. */
  lemma PromptEmbedsQuestion(question: string)
    ensures AskPrompt(question)[|AskPromptHead|..|AskPromptHead| + |question|] == question
    ensures |AskPrompt(question)| == |AskPromptHead| + |question| + 5
  {
  }

  /** The arguments of `openai.ChatCompletion.create` in `ask_with_chunks`. */
  datatype AskRequest = AskRequest(model: string, messages: seq<Message>, maxTokens: nat, temperature: real)

  /** One user message per chunk, in chunk order. */
  function ChunkMessages(chunks: seq<string>): (r: seq<Message>)
    ensures |r| == |chunks|
    ensures forall k :: 0 <= k < |chunks| ==> r[k] == Message(User, chunks[k])
  {
    if |chunks| == 0 then [] else [Message(User, chunks[0])] + ChunkMessages(chunks[1..])
  }

  /** How many messages precede the chunks: the caller's list, or the system
      message alone. */
  function HistoryLength(prev: seq<Message>): nat
  {
    if |prev| > 0 then |prev| else 1
  }

  /** The conversation a call continues: the caller's list, or a fresh one
      holding the system message. */
  function StartOf(prev: seq<Message>): (base: seq<Message>)
    ensures |base| == HistoryLength(prev)
    ensures |prev| > 0 ==> base == prev
    ensures |prev| == 0 ==> base[0] == Message(System, AskSystemPrompt)
  {
    if |prev| > 0 then prev else [Message(System, AskSystemPrompt)]
  }

  /** The messages sent: the conversation, one user message per chunk, then
      the prompt built from the question. */
  function Outgoing(base: seq<Message>, chunks: seq<string>, question: string): (m: seq<Message>)
    ensures |m| == |base| + |chunks| + 1
    ensures m[..|base|] == base
    ensures forall k :: |base| <= k < |base| + |chunks| ==> m[k] == Message(User, chunks[k - |base|])
    ensures m[|base| + |chunks|] == Message(User, AskPrompt(question))
  {
    var m := base + ChunkMessages(chunks) + [Message(User, AskPrompt(question))];
    assert m[..|base|] == base;
    m
  }

  /** What a call of `ask_with_chunks` did: the request it sent, the
      `(answer, messages)` pair it returned or the exception it raised, and
      what the caller's `prev_messages` list holds afterwards. */
  datatype Asked = Asked(request: AskRequest, result: Result<(string, seq<Message>)>, callerList: seq<Message>)

  /** The request `ask_with_chunks(question, chunks, prev_messages)` sends: the
      conversation so far, or a fresh one opened by the system message, then
      one user message per chunk and the prompt, to `gpt-4` with at most 1024
      tokens at temperature 0.7. */
  function AskRequestFor(question: string, chunks: seq<string>, prev: seq<Message>): (r: AskRequest)
    ensures var h := HistoryLength(prev);
      && |r.messages| == h + |chunks| + 1
      && (forall k :: h <= k < h + |chunks| ==> r.messages[k] == Message(User, chunks[k - h]))
      && r.messages[h + |chunks|] == Message(User, AskPrompt(question))
    ensures |prev| > 0 ==> r.messages[..|prev|] == prev
    ensures |prev| == 0 ==> r.messages[0] == Message(System, AskSystemPrompt)
    ensures r.model == "gpt-4" && r.maxTokens == 1024 && r.temperature == 0.7
  {
    AskRequest("gpt-4", Outgoing(StartOf(prev), chunks, question), 1024, 0.7)
  }

  /** `ask_with_chunks(question, chunks, prev_messages)`, given the contents of
      the response's choices. */
  function AskWithChunks(question: string, chunks: seq<string>, prev: seq<Message>,
                         api: AskRequest -> seq<string>): (o: Asked)
    ensures o.request == AskRequestFor(question, chunks, prev)
    // the answer is the first choice; without one the call raises
    ensures o.result.Err? <==> |api(o.request)| == 0
    ensures o.result.Err? ==> o.result.error == IndexError
    ensures o.result.Ok? ==> o.result.value.0 == api(o.request)[0]
    ensures o.result.Ok? ==> o.result.value.1 == o.request.messages + [Message(Assistant, o.result.value.0)]
    // a non-empty list passed in is the list extended and returned; the
    // shared default is never touched
    ensures |prev| == 0 ==> o.callerList == []
    ensures |prev| > 0 && o.result.Ok? ==> o.callerList == o.result.value.1
    ensures |prev| > 0 && o.result.Err? ==> o.callerList == o.request.messages
  {
    var request := AskRequestFor(question, chunks, prev);
    var choices := api(request);
    var result := if |choices| == 0 then Err(IndexError)
                  else Ok((choices[0], request.messages + [Message(Assistant, choices[0])]));
    var after := if |prev| == 0 then prev else if result.Ok? then result.value.1 else request.messages;
    Asked(request, result, after)
  }

  /** The returned answer is the content of the last message returned, which
      the assistant wrote; the list grew by the chunks, the prompt and the
      answer. */
  lemma AnswerIsLastMessage(question: string, chunks: seq<string>, prev: seq<Message>,
                            api: AskRequest -> seq<string>)
    requires AskWithChunks(question, chunks, prev, api).result.Ok?
    ensures var (answer, messages) := AskWithChunks(question, chunks, prev, api).result.value;
      && |messages| == HistoryLength(prev) + |chunks| + 2
      && messages[|messages| - 1] == Message(Assistant, answer)
  {
  }

  /** Passing the returned list back in continues the conversation: the
      earlier messages, system message included, come first and no second
      system message is added. */
  lemma FollowUpExtends(q1: string, c1: seq<string>, q2: string, c2: seq<string>,
                        api: AskRequest -> seq<string>)
    requires AskWithChunks(q1, c1, [], api).result.Ok?
    ensures var first := AskWithChunks(q1, c1, [], api).result.value.1;
      var second := AskWithChunks(q2, c2, first, api);
      && second.request.messages[..|first|] == first
      && second.request.messages[0] == Message(System, AskSystemPrompt)
      && |second.request.messages| == |first| + |c2| + 1
      && (forall k :: 1 <= k < |second.request.messages| ==> second.request.messages[k].role != System)
  {
    var o1 := AskWithChunks(q1, c1, [], api);
    var sent := Outgoing(StartOf([]), c1, q1);
    var first := sent + [Message(Assistant, o1.result.value.0)];
    assert o1.result.value.1 == first;
    var m := Outgoing(first, c2, q2);
    assert AskWithChunks(q2, c2, first, api).request.messages == m;
    OutgoingAddsNoSystem(StartOf([]), c1, q1);
    OutgoingAddsNoSystem(first, c2, q2);
    assert m[..|first|] == first;
    forall k | 1 <= k < |m|
      ensures m[k].role != System
    {
      if k < |first| {
        assert m[k] == first[k];
      }
    }
    assert m[0] == first[0];
  }

  /** Only the conversation passed in can hold a system message. */
  lemma OutgoingAddsNoSystem(base: seq<Message>, chunks: seq<string>, question: string)
    ensures forall k :: |base| <= k < |Outgoing(base, chunks, question)| ==>
              Outgoing(base, chunks, question)[k].role != System
  {
  }
}

=== FILE: pystr.dfy ===
/** The Python `str` operations the modelled code relies on, over `seq<char>`:
    `join` and `split` with a one-character separator, `splitlines`, `lstrip`,
    `rstrip`, `strip`, and `str(int)`. */
module PyStr {

  /** Number of occurrences of `c` in `s` (Python's `s.count(c)`). */
  function Count(s: string, c: char): nat
  {
    if |s| == 0 then 0 else (if s[0] == c then 1 else 0) + Count(s[1..], c)
  }

  /** Occurrences in a concatenation add up. */
  lemma {:induction false} CountConcat(a: string, b: string, c: char)
    ensures Count(a + b, c) == Count(a, c) + Count(b, c)
  {
    if |a| > 0 {
      CountConcat(a[1..], b, c);
      assert (a + b)[1..] == a[1..] + b;
    } else {
      assert a + b == b;
    }
  }

  /** A character that does not occur is counted zero times. */
  lemma {:induction false} CountAbsent(s: string, c: char)
    ensures c !in s ==> Count(s, c) == 0
  {
    if |s| > 0 {
      CountAbsent(s[1..], c);
      assert c !in s ==> c !in s[1..];
    }
  }

  /** `sep.join(parts)` for a one-character separator: it places one
      separator between each two neighbouring parts, so separator-free parts
      join into a text with one separator fewer than there are parts. */
  function Join(parts: seq<string>, sep: char): (r: string)
    ensures |parts| >= 1 && (forall i :: 0 <= i < |parts| ==> sep !in parts[i]) ==> Count(r, sep) == |parts| - 1
  {
    if |parts| == 0 then ""
    else if |parts| == 1 then (CountAbsent(parts[0], sep); parts[0])
    else
      var rest := Join(parts[1..], sep);
      CountConcat(parts[0] + [sep], rest, sep);
      CountConcat(parts[0], [sep], sep);
      CountAbsent(parts[0], sep);
      assert (forall i :: 0 <= i < |parts| ==> sep !in parts[i]) ==> (forall i :: 0 <= i < |parts[1..]| ==> sep !in parts[1..][i]);
      parts[0] + [sep] + rest
  }

  /** `s.split(sep)` for a one-character separator: never empty, one piece more
      than there are separators, and no piece contains the separator. */
  function Split(s: string, sep: char): (r: seq<string>)
    ensures |r| == Count(s, sep) + 1
    ensures forall i :: 0 <= i < |r| ==> sep !in r[i]
  {
    if |s| == 0 then [""]
    else
      var rest := Split(s[1..], sep);
      if s[0] == sep then [""] + rest
      else [[s[0]] + rest[0]] + rest[1..]
  }

  /** Joining the pieces of a split gives back the original text. */
  lemma {:induction false} JoinSplit(s: string, sep: char)
    ensures Join(Split(s, sep), sep) == s
  {
    if |s| > 0 {
      var rest := Split(s[1..], sep);
      JoinSplit(s[1..], sep);
      if s[0] == sep {
        assert Split(s, sep) == [""] + rest;
        assert ([""] + rest)[1..] == rest;
        assert s == [sep] + s[1..];
      } else if |rest| == 1 {
        assert Join(rest, sep) == rest[0];
        assert s == [s[0]] + s[1..];
      } else {
        var parts := [[s[0]] + rest[0]] + rest[1..];
        assert Split(s, sep) == parts;
        assert parts[1..] == rest[1..];
        assert Join(rest, sep) == rest[0] + [sep] + Join(rest[1..], sep);
        assert s == [s[0]] + s[1..];
      }
    }
  }

  /** Splitting text that starts with a separator-free `p`. */
  lemma {:induction false} SplitAfterPlainPrefix(p: string, t: string, sep: char)
    requires sep !in p
    ensures Split(p + t, sep) == [p + Split(t, sep)[0]] + Split(t, sep)[1..]
  {
    if |p| > 0 {
      SplitAfterPlainPrefix(p[1..], t, sep);
      assert (p + t)[1..] == p[1..] + t;
      assert [p[0]] + (p[1..] + Split(t, sep)[0]) == p + Split(t, sep)[0];
    } else {
      var r := Split(t, sep);
      assert p + t == t;
      assert p + r[0] == r[0];
      assert r == [r[0]] + r[1..];
    }
  }

  /** Splitting the join of separator-free pieces gives back the pieces, as long
      as there is at least one piece: `",".join([])` is `""`, which splits
      into `[""]`. */
  lemma {:induction false} SplitJoin(parts: seq<string>, sep: char)
    requires |parts| >= 1
    requires forall i :: 0 <= i < |parts| ==> sep !in parts[i]
    ensures Split(Join(parts, sep), sep) == parts
  {
    if |parts| == 1 {
      SplitAfterPlainPrefix(parts[0], "", sep);
      assert parts[0] + "" == parts[0];
    } else {
      var tail := parts[1..];
      SplitJoin(tail, sep);
      var j := Join(tail, sep);
      assert Join(parts, sep) == parts[0] + ([sep] + j);
      SplitAfterPlainPrefix(parts[0], [sep] + j, sep);
      assert ([sep] + j)[1..] == j;
      assert Split([sep] + j, sep) == [""] + tail;
      assert parts[0] + "" == parts[0];
      assert parts == [parts[0]] + tail;
    }
  }

  lemma EmptyJoinDoesNotRoundTrip(sep: char)
    ensures Join([], sep) == ""
    ensures Split(Join([], sep), sep) == [""]
  {
  }

  /** The characters Python's `str.splitlines` breaks on. */
  predicate IsLineBreak(c: char)
  {
    || c == '\n' || c == '\r' || c == '\U{0B}' || c == '\U{0C}' || c == '\U{1C}'
    || c == '\U{1D}' || c == '\U{1E}' || c == '\U{85}' || c == '\U{2028}' || c == '\U{2029}'
  }

  /** Index of the first line break in `s`, or `|s|` when there is none. */
  function LineEnd(s: string): (i: nat)
    ensures i <= |s|
    ensures forall j :: 0 <= j < i ==> !IsLineBreak(s[j])
    ensures i < |s| ==> IsLineBreak(s[i])
  {
    if |s| == 0 || IsLineBreak(s[0]) then 0 else 1 + LineEnd(s[1..])
  }

  /** `s.splitlines()`: a `\r\n` pair is one break, a final break does not
      start an extra line, and the empty string has no lines. */
  function SplitLines(s: string): (lines: seq<string>)
    ensures |lines| == 0 <==> |s| == 0
    ensures forall k, j :: 0 <= k < |lines| && 0 <= j < |lines[k]| ==> !IsLineBreak(lines[k][j])
    decreases |s|
  {
    if |s| == 0 then []
    else
      var i := LineEnd(s);
      if i == |s| then [s]
      else
        var next := if s[i] == '\r' && i + 1 < |s| && s[i + 1] == '\n' then i + 2 else i + 1;
        [s[..i]] + SplitLines(s[next..])
  }

  /** Text whose only line breaks are `\n` and which does not end in one. */
  ghost predicate PlainLines(s: string)
  {
    && (forall j :: 0 <= j < |s| ==> (IsLineBreak(s[j]) ==> s[j] == '\n'))
    && (|s| > 0 ==> s[|s| - 1] != '\n')
  }

  /** For such text, joining its lines with `\n` restores it. */
  lemma {:induction false} JoinSplitLines(s: string)
    requires PlainLines(s)
    ensures Join(SplitLines(s), '\n') == s
    decreases |s|
  {
    if |s| > 0 {
      var i := LineEnd(s);
      if i == |s| {
        assert SplitLines(s) == [s];
      } else {
        var rest := PlainLinesStep(s);
        JoinSplitLines(rest);
        JoinCons(s[..i], SplitLines(rest), '\n');
        SplitAround(s, i);
      }
    }
  }

  /** One step of `splitlines` over text whose first break is a `\n`. */
  lemma PlainLinesStep(s: string) returns (rest: string)
    requires PlainLines(s) && LineEnd(s) < |s|
    ensures rest == s[LineEnd(s) + 1..]
    ensures |rest| > 0 && PlainLines(rest)
    ensures SplitLines(s) == [s[..LineEnd(s)]] + SplitLines(rest)
  {
    var i := LineEnd(s);
    assert s[i] == '\n';
    rest := s[i + 1..];
    assert i + 1 < |s|;
    PlainLinesSuffix(s, i + 1);
  }

  /** A suffix of such text is such text, if it is not empty. */
  lemma PlainLinesSuffix(s: string, n: nat)
    requires PlainLines(s) && n < |s|
    ensures PlainLines(s[n..])
  {
    var t := s[n..];
    forall j | 0 <= j < |t|
      ensures IsLineBreak(t[j]) ==> t[j] == '\n'
    {
      assert t[j] == s[n + j];
    }
    assert t[|t| - 1] == s[|s| - 1];
  }

  lemma SplitAround(s: string, i: nat)
    requires i < |s| && s[i] == '\n'
    ensures s == s[..i] + ['\n'] + s[i + 1..]
  {
  }

  lemma JoinCons(x: string, parts: seq<string>, sep: char)
    requires |parts| > 0
    ensures Join([x] + parts, sep) == x + [sep] + Join(parts, sep)
  {
    assert ([x] + parts)[1..] == parts;
  }

  /** For such non-empty text, `splitlines()` agrees with `split("\n")`. */
  lemma SplitLinesIsSplit(s: string)
    requires PlainLines(s) && |s| > 0
    ensures SplitLines(s) == Split(s, '\n')
  {
    var lines := SplitLines(s);
    assert forall k :: 0 <= k < |lines| ==> '\n' !in lines[k] by {
      forall k | 0 <= k < |lines|
        ensures '\n' !in lines[k]
      {
        assert IsLineBreak('\n');
      }
    }
    JoinSplitLines(s);
    SplitJoin(lines, '\n');
  }

  /** Where the run of characters of `chars` starting at `i` ends. */
  function LeadEnd(s: string, chars: string, i: nat): (e: nat)
    requires i <= |s|
    ensures i <= e <= |s|
    ensures forall j :: i <= j < e ==> s[j] in chars
    ensures e < |s| ==> s[e] !in chars
    decreases |s| - i
  {
    if i < |s| && s[i] in chars then LeadEnd(s, chars, i + 1) else i
  }

  /** Where the run of characters of `chars` ending just before `i` starts. */
  function TrailStart(s: string, chars: string, i: nat): (b: nat)
    requires i <= |s|
    ensures b <= i
    ensures forall j :: b <= j < i ==> s[j] in chars
    ensures b > 0 ==> s[b - 1] !in chars
  {
    if i > 0 && s[i - 1] in chars then TrailStart(s, chars, i - 1) else i
  }

  /** `s.lstrip(chars)`: the longest suffix of `s` that does not start with a
      character of `chars`. */
  function LStrip(s: string, chars: string): (r: string)
    ensures |r| <= |s| && r == s[|s| - |r|..]
    ensures |r| > 0 ==> r[0] !in chars
    ensures forall j :: 0 <= j < |s| - |r| ==> s[j] in chars
  {
    s[LeadEnd(s, chars, 0)..]
  }

  /** `s.rstrip(chars)`: the longest prefix of `s` that does not end with a
      character of `chars`. */
  function RStrip(s: string, chars: string): (r: string)
    ensures |r| <= |s| && r == s[..|r|]
    ensures |r| > 0 ==> r[|r| - 1] !in chars
    ensures forall j :: |r| <= j < |s| ==> s[j] in chars
  {
    s[..TrailStart(s, chars, |s|)]
  }

  /** Stripping is idempotent: a stripped string strips to itself. */
  lemma LStripIdempotent(s: string, chars: string)
    ensures LStrip(LStrip(s, chars), chars) == LStrip(s, chars)
  {
  }

  /** Python's whitespace characters, as `str.strip()` without arguments uses them. */
  const Whitespace: string :=
    "\t\n\U{0B}\U{0C}\r\U{1C}\U{1D}\U{1E}\U{1F} \U{85}\U{A0}\U{1680}"
    + "\U{2000}\U{2001}\U{2002}\U{2003}\U{2004}\U{2005}\U{2006}\U{2007}\U{2008}\U{2009}\U{200A}"
    + "\U{2028}\U{2029}\U{202F}\U{205F}\U{3000}"

  /** `s.strip(chars)`: `s` with leading and trailing characters of `chars`
      removed. What is left is a slice of `s` that neither starts nor ends
      with a character of `chars`, and everything cut off on either side
      is in `chars`. */
  function StripChars(s: string, chars: string): (r: string)
    ensures |r| > 0 ==> r[0] !in chars && r[|r| - 1] !in chars
    ensures exists a, b :: 0 <= a <= b <= |s| && r == s[a..b]
                           && (forall j :: 0 <= j < a ==> s[j] in chars)
                           && (forall j :: b <= j < |s| ==> s[j] in chars)
  {
    var l := LStrip(s, chars);
    var r := RStrip(l, chars);
    var a := |s| - |l|;
    assert r == s[a..][..|r|];
    assert s[a..][..|r|] == s[a..a + |r|];
    assert forall j :: a + |r| <= j < |s| ==> s[j] == l[j - a];
    r
  }

  /** Stripping a stripped string changes nothing. */
  lemma StripCharsIdempotent(s: string, chars: string)
    ensures StripChars(StripChars(s, chars), chars) == StripChars(s, chars)
  {
    var r := StripChars(s, chars);
    assert LStrip(r, chars) == r;
    assert RStrip(r, chars) == r;
  }

  /** `s.strip()`: `s` with leading and trailing whitespace removed. The
      result is a slice of `s` that neither starts nor ends with
      whitespace, and everything cut off on either side is whitespace. */
  function Strip(s: string): (r: string)
    ensures |r| <= |s|
    ensures |r| > 0 ==> r[0] !in Whitespace && r[|r| - 1] !in Whitespace
    ensures exists a, b :: 0 <= a <= b <= |s| && r == s[a..b]
                           && (forall j :: 0 <= j < a ==> s[j] in Whitespace)
                           && (forall j :: b <= j < |s| ==> s[j] in Whitespace)
  {
    StripChars(s, Whitespace)
  }

  /** The decimal digit for `d`: `'0'` through `'9'`. */
  function Digit(d: nat): char
    requires d < 10
  {
    (('0' as int) + d) as char
  }

  /** `str(n)` for a non-negative integer. */
  function NatToDecimal(n: nat): (r: string)
    ensures |r| >= 1
    ensures forall j :: 0 <= j < |r| ==> '0' <= r[j] <= '9'
    ensures r[0] == '0' <==> n == 0
    ensures |r| > 1 ==> r[0] != '0'
    decreases n
  {
    if n < 10 then [Digit(n)] else NatToDecimal(n / 10) + [Digit(n % 10)]
  }

  /** `str(n)` for any integer: a minus sign exactly for a negative `n`,
      then the decimal digits of its magnitude with no leading zero. */
  function IntToDecimal(n: int): (r: string)
    ensures |r| >= 1
    ensures r[0] == '-' <==> n < 0
    ensures var digits := if n < 0 then r[1..] else r;
      && |digits| >= 1
      && (forall j :: 0 <= j < |digits| ==> '0' <= digits[j] <= '9')
      && (|digits| > 1 ==> digits[0] != '0')
      && DecimalValue(digits) == if n < 0 then -n else n
  {
    NatToDecimalRoundTrip(if n < 0 then -n else n);
    if n < 0 then "-" + NatToDecimal(-n) else NatToDecimal(n)
  }

  /** The value of a string of decimal digits; the reading direction of `int(s)`. */
  function DecimalValue(s: string): nat
    requires forall j :: 0 <= j < |s| ==> '0' <= s[j] <= '9'
  {
    if |s| == 0 then 0
    else DecimalValue(s[..|s| - 1]) * 10 + ((s[|s| - 1] as int) - ('0' as int))
  }

  /** Reading back the digits `str` writes gives the number. */
  lemma {:induction false} NatToDecimalRoundTrip(n: nat)
    ensures DecimalValue(NatToDecimal(n)) == n
    decreases n
  {
    var r := NatToDecimal(n);
    if n >= 10 {
      NatToDecimalRoundTrip(n / 10);
      assert r[..|r| - 1] == NatToDecimal(n / 10);
    }
  }
}

=== FILE: similarity.dfy ===
/** Cosine similarity of two embeddings, as `cosine_similarity` in
    datastore/datastore.py computes it, over real numbers.

    The source returns `sumxy / sqrt(sumxx * sumyy)`. The model keeps the
    quotient symbolic as a `Score(dot, normSq)` and decides a threshold test
    `dot / sqrt(normSq) > t` without square roots: for `t >= 0` it holds
    exactly when `dot > 0` and `dot * dot > t * t * normSq`. */
module Similarity {
  import opened Base

  type Vector = seq<real>

  /** The sum of `a[i] * b[i]` for `i < n`, accumulated front to back. */
  function Dot(a: Vector, b: Vector, n: nat): real
    requires n <= |a| && n <= |b|
  {
    if n == 0 then 0.0 else Dot(a, b, n - 1) + a[n - 1] * b[n - 1]
  }

  ghost predicate IsZeroUpTo(v: Vector, n: nat)
    requires n <= |v|
  {
    forall i :: 0 <= i < n ==> v[i] == 0.0
  }

  // Small facts of real arithmetic, each proved on its own so that the
  // solver never has to search for them inside a larger proof.

  lemma ProductPositive(a: real, b: real) returns (p: real)
    requires a > 0.0 && b > 0.0
    ensures p == a * b && p > 0.0
  {
    p := a * b;
  }

  lemma ProductNonNegative(a: real, b: real)
    requires a >= 0.0 && b >= 0.0
    ensures a * b >= 0.0
    ensures a * b == 0.0 <==> a == 0.0 || b == 0.0
  {
    if a > 0.0 && b > 0.0 {
      var p := ProductPositive(a, b);
    } else if a == 0.0 {
      assert a * b == 0.0 * b;
    } else {
      assert a * b == a * 0.0;
    }
  }

  /** A square is non-negative, and zero only at zero. */
  lemma SquareOf(x: real, X: real)
    requires X == x * x
    ensures X >= 0.0
    ensures X == 0.0 <==> x == 0.0
  {
    if x > 0.0 {
      var p := ProductPositive(x, x);
    } else if x < 0.0 {
      var p := ProductPositive(-x, -x);
      assert (-x) * (-x) == x * x;
    } else {
      assert X == 0.0 * 0.0;
    }
  }

  /** Squaring is strictly monotone on the non-negative reals. */
  lemma SquareLess(p: real, q: real)
    requires 0.0 <= p < q
    ensures p * p < q * q
  {
    var d := ProductPositive(q - p, q + p);
    assert d == q * q - p * p;
  }

  lemma SquareAtMost(p: real, q: real)
    requires 0.0 <= p <= q
    ensures p * p <= q * q
  {
    if p < q {
      SquareLess(p, q);
    }
  }

  /** Adding a non-negative term to a non-negative sum keeps it non-negative,
      and the result is zero only when both parts are. */
  lemma AddNonNegative(D: real, X: real, D': real)
    requires D >= 0.0 && X >= 0.0 && D' == D + X
    ensures D' >= 0.0
    ensures D' == 0.0 <==> D == 0.0 && X == 0.0
  {
  }

  /** A sum of squares is non-negative, and zero exactly on a zero vector. */
  lemma {:induction false} SumOfSquares(v: Vector, n: nat)
    requires n <= |v|
    ensures Dot(v, v, n) >= 0.0
    ensures Dot(v, v, n) == 0.0 <==> IsZeroUpTo(v, n)
  {
    if n > 0 {
      SumOfSquares(v, n - 1);
      var x := v[n - 1];
      SquareOf(x, x * x);
      AddNonNegative(Dot(v, v, n - 1), x * x, Dot(v, v, n));
      assert IsZeroUpTo(v, n) <==> IsZeroUpTo(v, n - 1) && x == 0.0;
    }
  }

  lemma {:induction false} DotSymmetric(a: Vector, b: Vector, n: nat)
    requires n <= |a| && n <= |b|
    ensures Dot(a, b, n) == Dot(b, a, n)
  {
    if n > 0 {
      DotSymmetric(a, b, n - 1);
    }
  }

  /** Only the first `n` components of either vector take part. */
  lemma {:induction false} DotPrefix(a: Vector, b: Vector, n: nat)
    requires n <= |a| && n <= |b|
    ensures Dot(a, b, n) == Dot(a, b[..n], n)
    decreases n
  {
    if n > 0 {
      DotPrefix(a, b[..n], n - 1);
      DotPrefix(a, b, n - 1);
      assert b[..n][..n - 1] == b[..n - 1];
    }
  }

  /** `(AY - BX)^2 + 4(AB - C^2)XY`, written out. */
  lemma CrossTermIdentity(A: real, B: real, C: real, X: real, Y: real, Z: real)
    requires Z * Z == X * Y
    ensures (A * Y + B * X) * (A * Y + B * X) - (2.0 * C * Z) * (2.0 * C * Z)
            == (A * Y - B * X) * (A * Y - B * X) + 4.0 * ((A * B - C * C) * (X * Y))
  {
    assert (2.0 * C * Z) * (2.0 * C * Z) == 4.0 * (C * C) * (Z * Z);
  }

  /** `2CZ <= AY + BX` whenever `C^2 <= AB`, `Z^2 = XY`, and `A, B, X, Y >= 0`. */
  lemma CrossTermBound(A: real, B: real, C: real, X: real, Y: real, Z: real)
    requires A >= 0.0 && B >= 0.0 && X >= 0.0 && Y >= 0.0
    requires C * C <= A * B && Z * Z == X * Y
    ensures 2.0 * C * Z <= A * Y + B * X
  {
    ProductNonNegative(A, Y);
    ProductNonNegative(B, X);
    var P := A * Y + B * X;
    var Q := 2.0 * C * Z;
    if Q > 0.0 {
      CrossTermIdentity(A, B, C, X, Y, Z);
      var d := A * Y - B * X;
      SquareOf(d, d * d);
      ProductNonNegative(X, Y);
      ProductNonNegative(A * B - C * C, X * Y);
      assert P * P - Q * Q >= 0.0;
      if P < Q {
        SquareLess(P, Q);
      }
    }
  }

  /** One step of the Cauchy-Schwarz induction. */
  lemma CauchySchwarzStep(A: real, B: real, C: real, x: real, y: real, A': real, B': real, C': real)
    requires A >= 0.0 && B >= 0.0 && C * C <= A * B
    requires A' == A + x * x && B' == B + y * y && C' == C + x * y
    ensures C' * C' <= A' * B'
  {
    var X, Y, Z := x * x, y * y, x * y;
    SquareOf(x, X);
    SquareOf(y, Y);
    assert Z * Z == X * Y;
    CrossTermBound(A, B, C, X, Y, Z);
    assert (C + Z) * (C + Z) == C * C + 2.0 * C * Z + Z * Z;
    assert (A + X) * (B + Y) == A * B + A * Y + B * X + X * Y;
  }

  /** The Cauchy-Schwarz inequality for the sums the source accumulates. */
  lemma {:induction false} CauchySchwarz(a: Vector, b: Vector, n: nat)
    requires n <= |a| && n <= |b|
    ensures Dot(a, b, n) * Dot(a, b, n) <= Dot(a, a, n) * Dot(b, b, n)
  {
    if n > 0 {
      var x, y := a[n - 1], b[n - 1];
      var A, B, C := Dot(a, a, n - 1), Dot(b, b, n - 1), Dot(a, b, n - 1);
      assert C * C <= A * B by {
        CauchySchwarz(a, b, n - 1);
      }
      assert A >= 0.0 && B >= 0.0 by {
        SumOfSquares(a, n - 1);
        SumOfSquares(b, n - 1);
      }
      CauchySchwarzStep(A, B, C, x, y, Dot(a, a, n), Dot(b, b, n), Dot(a, b, n));
    }
  }

  /** A cosine similarity `dot / sqrt(normSq)`, with `normSq` the product of
      the two squared norms. */
  datatype Score = Score(dot: real, normSq: real)

  /** The near-duplicate threshold of the upsert filter. */
  const Threshold: real := 0.9

  /** `sumxx * sumyy`: the squared norms of `v1` and of as much of `v2` as the loop reads. */
  function NormProduct(v1: Vector, v2: Vector): real
    requires |v1| <= |v2|
  {
    Dot(v1, v1, |v1|) * Dot(v2, v2, |v1|)
  }

  /** `cosine_similarity(v1, v2)`: the loop runs over the indices of `v1` and
      reads `v2` at each, so a shorter `v2` raises `IndexError` and a longer
      one contributes only its first `|v1|` components; a zero product of
      squared norms raises `ZeroDivisionError`. */
  function Similarity(v1: Vector, v2: Vector): (r: Result<Score>)
    ensures r.Err? ==> r.error == IndexError || r.error == ZeroDivisionError
    ensures r.Ok? ==> |v1| <= |v2| && r.value.normSq > 0.0
  {
    if |v2| < |v1| then Err(IndexError)
    else if NormProduct(v1, v2) == 0.0 then Err(ZeroDivisionError)
    else
      SumOfSquares(v1, |v1|);
      SumOfSquares(v2, |v1|);
      ProductNonNegative(Dot(v1, v1, |v1|), Dot(v2, v2, |v1|));
      Ok(Score(Dot(v1, v2, |v1|), NormProduct(v1, v2)))
  }

  /** Which inputs make `cosine_similarity` raise, and which exception. */
  lemma SimilarityFailures(v1: Vector, v2: Vector)
    ensures Similarity(v1, v2) == Err(IndexError) <==> |v2| < |v1|
    ensures Similarity(v1, v2) == Err(ZeroDivisionError) <==>
              |v1| <= |v2| && (IsZeroUpTo(v1, |v1|) || IsZeroUpTo(v2, |v1|))
  {
    if |v1| <= |v2| {
      var n := |v1|;
      SumOfSquares(v1, n);
      SumOfSquares(v2, n);
      ProductNonNegative(Dot(v1, v1, n), Dot(v2, v2, n));
    }
  }

  /** A computed similarity lies in [-1, 1]: its squared dividend never
      exceeds the product of squared norms, which is positive. */
  lemma SimilarityBounded(v1: Vector, v2: Vector)
    requires Similarity(v1, v2).Ok?
    ensures 0.0 < Similarity(v1, v2).value.normSq
    ensures Similarity(v1, v2).value.dot * Similarity(v1, v2).value.dot <= Similarity(v1, v2).value.normSq
  {
    var n := |v1|;
    SumOfSquares(v1, n);
    SumOfSquares(v2, n);
    ProductNonNegative(Dot(v1, v1, n), Dot(v2, v2, n));
    CauchySchwarz(v1, v2, n);
  }

  /** `dot / sqrt(normSq) > t`, stated without the square root. */
  predicate Exceeds(s: Score, t: real)
  {
    s.dot > 0.0 && s.dot * s.dot > t * t * s.normSq
  }

  /** A quotient by a positive number exceeds `t` exactly when the dividend
      exceeds `t` times the divisor. */
  lemma QuotientAbove(a: real, root: real, t: real)
    requires root > 0.0
    ensures a / root > t <==> a > t * root
  {
    var q := a / root;
    assert a == q * root;
    assert a - t * root == (q - t) * root;
    if q > t {
      var p := ProductPositive(q - t, root);
    } else if t > q {
      var p := ProductPositive(t - q, root);
    }
  }

  /** The squared form decides the same comparison as the quotient itself. */
  lemma ExceedsIsQuotientAbove(s: Score, root: real, t: real)
    requires root > 0.0 && root * root == s.normSq && t >= 0.0
    ensures Exceeds(s, t) <==> s.dot / root > t
  {
    QuotientAbove(s.dot, root, t);
    var tr := t * root;
    ProductNonNegative(t, root);
    assert t * t * s.normSq == tr * tr;
    if s.dot > tr {
      SquareLess(tr, s.dot);
    } else if s.dot > 0.0 {
      SquareAtMost(s.dot, tr);
    }
  }

  /** `cosine_similarity(stored, candidate) > 0.9`, or the exception raised computing it. */
  function Similar(stored: Vector, candidate: Vector): (r: Result<bool>)
    ensures r.Err? <==> Similarity(stored, candidate).Err?
    ensures r.Err? ==> r.error == IndexError || r.error == ZeroDivisionError
    ensures r == Ok(true) ==> |stored| <= |candidate| && Dot(stored, candidate, |stored|) > 0.0
  {
    match Similarity(stored, candidate)
    case Err(e) => Err(e)
    case Ok(s) => Ok(Exceeds(s, Threshold))
  }

  /** The comparison with one stored embedding is the threshold test
      itself: for the square root `root` of the norm product, it answers
      whether `dot / root` exceeds 0.9. */
  lemma SimilarIsThresholdTest(stored: Vector, candidate: Vector, root: real)
    requires Similarity(stored, candidate).Ok?
    requires root > 0.0 && root * root == NormProduct(stored, candidate)
    ensures Similar(stored, candidate) == Ok(Dot(stored, candidate, |stored|) / root > Threshold)
  {
    ExceedsIsQuotientAbove(Similarity(stored, candidate).value, root, Threshold);
  }

  /** The source's loop: it accumulates the three sums together and raises
      `IndexError` at the first index `v2` lacks. */
  method CosineSimilarity(v1: Vector, v2: Vector) returns (r: Result<Score>)
    ensures r == Similarity(v1, v2)
  {
    var sumxx, sumxy, sumyy := 0.0, 0.0, 0.0;
    var i := 0;
    while i < |v1|
      invariant i <= |v1| && i <= |v2|
      invariant sumxx == Dot(v1, v1, i)
      invariant sumyy == Dot(v2, v2, i)
      invariant sumxy == Dot(v1, v2, i)
    {
      if i >= |v2| {
        return Err(IndexError);
      }
      var x, y := v1[i], v2[i];
      sumxx := sumxx + x * x;
      sumyy := sumyy + y * y;
      sumxy := sumxy + x * y;
      i := i + 1;
    }
    assert i == |v1| <= |v2|;
    if sumxx * sumyy == 0.0 {
      return Err(ZeroDivisionError);
    }
    assert NormProduct(v1, v2) == sumxx * sumyy;
    assert Similarity(v1, v2).Ok?;
    return Ok(Score(sumxy, sumxx * sumyy));
  }

  /** Similarity is symmetric for vectors of equal length. */
  lemma SimilaritySymmetric(v1: Vector, v2: Vector)
    requires |v1| == |v2|
    ensures Similarity(v1, v2) == Similarity(v2, v1)
  {
    var n := |v1|;
    DotSymmetric(v1, v2, n);
    var xx, yy := Dot(v1, v1, n), Dot(v2, v2, n);
    assert NormProduct(v1, v2) == xx * yy == yy * xx == NormProduct(v2, v1);
  }

  /** With lengths that differ it is not: a longer second vector is cut to
      the first one's length, and the reversed call raises `IndexError`. */
  lemma SimilarityTruncatesSecond(v1: Vector, v2: Vector)
    requires |v1| <= |v2|
    ensures Similarity(v1, v2) == Similarity(v1, v2[..|v1|])
    ensures |v1| < |v2| ==> Similarity(v2, v1) == Err(IndexError)
  {
    var n := |v1|;
    var w := v2[..n];
    DotPrefix(v1, v2, n);
    DotPrefix(v2, v2, n);
    DotPrefix(w, v2, n);
    assert w[..n] == w;
    DotSymmetric(v2, w, n);
    assert Dot(v2, v2, n) == Dot(w, w, n);
    assert NormProduct(v1, v2) == NormProduct(v1, w);
  }

  /** A non-zero vector has similarity exactly 1 with itself, so it is always
      a near-duplicate of itself; a zero vector raises `ZeroDivisionError`. */
  lemma SelfSimilarity(v: Vector)
    ensures IsZeroUpTo(v, |v|) ==> Similarity(v, v) == Err(ZeroDivisionError)
    ensures !IsZeroUpTo(v, |v|) ==>
              && Similarity(v, v).Ok?
              && (var s := Similarity(v, v).value;
                  var root := Dot(v, v, |v|);
                  root > 0.0 && root * root == s.normSq && s.dot / root == 1.0)
    ensures !IsZeroUpTo(v, |v|) ==> Similar(v, v) == Ok(true)
  {
    var root := Dot(v, v, |v|);
    SumOfSquares(v, |v|);
    if root > 0.0 {
      var sq := ProductPositive(root, root);
      assert Exceeds(Score(root, sq), Threshold);
    }
  }
}

=== FILE: supabase.dfy ===
/** The Supabase variant of the question store, services/supabase.py: reading
    the embedding column back into vectors while skipping empty cells, and
    the insert whose reply must not be empty.

    The select and the insert are not modelled: the embedding cells the
    select returns, and the number of rows the insert reports, are
    parameters. */
module Supabase {
  import opened Base
  import opened PyStr
  import opened Similarity
  import opened EmbeddingText

  /** The embedding cell of a row holds text: it is neither `None` nor `""`. */
  predicate Filled(cell: Option<string>)
  {
    cell.Some? && cell.value != ""
  }

  /** The text of a filled cell. */
  function FilledText(cell: Option<string>): (r: Option<string>)
    ensures r.Some? <==> Filled(cell)
    ensures r.Some? ==> cell == Some(r.value)
  {
    if Filled(cell) then cell else None
  }

  /** The texts of the filled cells, in row order. */
  function Present(cells: seq<Option<string>>): (r: seq<string>)
    ensures |r| <= |cells|
  {
    FilterMap(cells, FilledText)
  }

  /** `Present` skips exactly the empty cells: `idx` lists the filled cells
      in increasing order, one per kept text, so there are as many texts as
      filled cells, and each text is its cell's non-empty text. */
  lemma PresentTrace(cells: seq<Option<string>>) returns (idx: seq<nat>)
    ensures |idx| == |Present(cells)|
    ensures IsTrace(idx, |cells|)
    ensures forall k :: 0 <= k < |idx| ==> cells[idx[k]] == Some(Present(cells)[k]) && Present(cells)[k] != ""
    ensures forall i :: 0 <= i < |cells| ==> (Filled(cells[i]) <==> i in idx)
  {
    idx := FilterMapTrace(cells, FilledText);
    forall k | 0 <= k < |idx|
      ensures cells[idx[k]] == Some(Present(cells)[k]) && Present(cells)[k] != ""
    {
      assert FilledText(cells[idx[k]]) == Some(Present(cells)[k]);
    }
  }

  /** `query_question_embeddings(chain)` given the embedding cells the select
      returns: empty cells are skipped, every other cell yields one vector, in
      row order, with one component more than its text has commas; a cell
      whose text does not parse raises `ValueError`. */
  method QueryQuestionEmbeddings(cells: seq<Option<string>>, parse: string -> Option<real>)
    returns (r: Result<seq<Vector>>)
    ensures r.Ok? <==> forall k :: 0 <= k < |Present(cells)| ==> Decode(Present(cells)[k], parse).Ok?
    ensures r.Ok? ==> |r.value| == |Present(cells)|
    ensures r.Ok? ==> forall k :: 0 <= k < |r.value| ==>
              && Decode(Present(cells)[k], parse) == Ok(r.value[k])
              && |r.value[k]| == Count(Present(cells)[k], ',') + 1
    ensures r.Err? ==> r.error == ValueError
  {
    var results: seq<Vector> := [];
    var i := 0;
    while i < |cells|
      invariant i <= |cells|
      invariant |results| == |Present(cells[..i])|
      invariant forall k :: 0 <= k < |results| ==> Decode(Present(cells[..i])[k], parse) == Ok(results[k])
    {
      var cell := cells[i];
      FilterMapSnoc(cells, FilledText, i);
      if cell == None || cell.value == "" {
        assert Present(cells[..i + 1]) == Present(cells[..i]) + [];
        i := i + 1;
        continue;
      }
      ghost var before := Present(cells[..i]);
      assert Present(cells[..i + 1]) == before + [cell.value];
      var embedding := Decode(cell.value, parse);
      if embedding.Err? {
        FilterMapPrefix(cells, FilledText, i + 1);
        assert Present(cells)[|results|] == cell.value;
        return Err(embedding.error);
      }
      forall k | 0 <= k < |results| + 1
        ensures Decode((before + [cell.value])[k], parse) == Ok((results + [embedding.value])[k])
      {
        if k < |results| {
          assert (before + [cell.value])[k] == before[k];
        }
      }
      results := results + [embedding.value];
      i := i + 1;
    }
    assert cells[..i] == cells;
    return Ok(results);
  }

  /** The text a save writes for a non-empty embedding is never skipped, and
      reads back as that embedding. */
  lemma SavedEmbeddingReadsBack(v: Vector, show: real -> string, parse: string -> Option<real>)
    requires Faithful(v, show, parse) && |v| >= 1 && parse("") == None
    ensures Present([Some(Encode(v, show))]) == [Encode(v, show)]
    ensures Decode(Present([Some(Encode(v, show))])[0], parse) == Ok(v)
  {
    DecodeEncode(v, show, parse);
    assert Decode("", parse).Err? by {
      assert Split("", ',') == [""];
    }
    assert Encode(v, show) != "";
    FilterMapSnoc([Some(Encode(v, show))], FilledText, 0);
  }

  /** The empty embedding is written as `""`, and a cell holding `""` is skipped
      rather than raising. */
  lemma EmptyEmbeddingSkipped(show: real -> string)
    ensures Encode([], show) == ""
    ensures Present([Some(Encode([], show))]) == []
  {
    FilterMapSnoc([Some(Encode([], show))], FilledText, 0);
  }

  /** The table `save_question_to_db` inserts into. */
  const QuestionsTable: string := "stakex_cms_questions"

  /** The row an insert sends. */
  datatype Insert = Insert(table: string, chain: string, question: string, embedding: string)

  /** What a save did: the insert it sent, and whether its assertion held. */
  datatype SaveOutcome = SaveOutcome(request: Insert, result: Result<()>)

  /** `save_question_to_db(chain, question, embedding)`, given how many rows
      the insert reports back: the insert carries the three values into the
      questions table, and the call raises `AssertionError` exactly when no row
      comes back. */
  function SaveQuestion(chain: string, question: string, embedding: string, returned: Insert -> nat): (o: SaveOutcome)
    ensures o.request.table == QuestionsTable
    ensures (o.request.chain, o.request.question, o.request.embedding) == (chain, question, embedding)
    ensures o.result.Err? <==> returned(o.request) == 0
    ensures o.result.Err? ==> o.result.error == AssertionError
  {
    var request := Insert(QuestionsTable, chain, question, embedding);
    SaveOutcome(request, if returned(request) > 0 then Ok(()) else Err(AssertionError))
  }

  /** The embedding cell of the row a save inserts is kept by the read and
      decodes to the embedding whose text was saved, whatever the insert
      reports back. */
  lemma SaveThenReadEmbedding(chain: string, question: string, v: Vector, returned: Insert -> nat,
                              show: real -> string, parse: string -> Option<real>)
    requires Faithful(v, show, parse) && |v| >= 1 && parse("") == None
    ensures var cell := Some(SaveQuestion(chain, question, Encode(v, show), returned).request.embedding);
      && Present([cell]) == [Encode(v, show)]
      && Decode(Present([cell])[0], parse) == Ok(v)
  {
    SavedEmbeddingReadsBack(v, show, parse);
  }
}
